=== FILE: README.md ===
# Gathered bytes, repository opening and PEM file names, in Dafny

This project models three sequential pieces of kopia and proves properties of
the models.

- **Gathered bytes** (`internal/gather/gather_bytes.go`). A `gather.Bytes`
  value is a list of byte slices that together stand for one logical byte
  string. Module `Gather` (gather.dfy) covers:
  - its length, `AppendToSlice`, `ToByteSlice`, `FromSlice` and `WriteTo`;
  - `AppendSectionTo`, the window copy across slice boundaries;
  - `ReadAt`.

  Module `GatherReader` (gather_reader.dfy) covers the bounds-checked reader
  `bytesReadSeekCloser` and the looser `ReaderWrapper`. Writers are values
  holding what they received and an optional fault: a byte budget after which
  the write that reaches it stores what fits and fails. Readers are
  values holding their position, and every operation returns the new one.
  The validity mark that `invalidate` leaves is a precondition of every
  operation that calls `assertValid`.
- **Opening a repository** (`repo/open.go`). The pure decisions are modelled.
  The storage, the format manager, crypto and JSON are supplied as values.
  - `Features` (features.dfy): the required-feature gate.
  - `StorageChain` (storage_chain.dfy): the order of the storage wrappers and
    the retention Put hook.
  - `UpgradeLock` (upgrade_lock.dfy): the upgrade-lock check retried at open
    time, and the monitor callback run before each storage operation.
  - `RepoOpen` (repo_open.dfy): option defaults, configuration validation
    and dispatch, cache-secret selection, throttling-limit selection, and
    the order and errors of the steps of a direct open.
- **PEM block names** (`tools/kats/pems/pems.go`). Module `Pems` (pems.dfy)
  models `FilenameFromBlockName` on ASCII input.

Shared types live in module `Common` (common.dfy):
- bytes;
- `Option` and `Result`;
- the error values the code produces, with `Wrapped(context, cause)` for
  `errors.Wrap` and `Is` for `errors.Is`.

The storage wrappers are applied in this order, innermost first
(repo/open.go:371-477): logging, read-only, metrics, throttling, retention,
and the upgrade-lock monitor.

## Model

| member | source | states |
|---|---|---|
| Gather.Invalidate | internal/gather/gather_bytes.go:25-28 | an invalidated value has no slices and fails every later validity check |
| Gather.SumLengths | internal/gather/gather_bytes.go:98-109 | the loop adding up the slice lengths gives the length of the concatenated content |
| Gather.Length | internal/gather/gather_bytes.go:98-109 | `Length()` is the length of the logical content |
| Gather.AppendAll | internal/gather/gather_bytes.go:171-180 | appending each slice in turn yields the output followed by the concatenation |
| Gather.AppendToSlice | internal/gather/gather_bytes.go:171-180 | `AppendToSlice(out)` is `out` followed by the content, `Length()` bytes longer |
| Gather.ToByteSlice | internal/gather/gather_bytes.go:182-187 | `ToByteSlice()` is exactly the content, of length `Length()` |
| Gather.FromSlice | internal/gather/gather_bytes.go:209-217 | `FromSlice(b)` holds the single slice `b`, its length is `len(b)` and `FromSlice(b).ToByteSlice() == b` |
| Gather.ConcatAppend | internal/gather/gather_bytes.go:16-18 | the content of two slice lists joined is the two contents joined |
| Gather.Locate | internal/gather/gather_bytes.go:44-59 | the first loop stops at the slice holding the offset (or past the last one) with the remaining offset inside it, preserving the absolute position |
| Gather.WriteRest | internal/gather/gather_bytes.go:77-93 | the second loop writes `min(size, rest)` bytes of the content from slice `ndx` on, as one write would, with a writer error wrapped "error appending" |
| Gather.WriteFrom | internal/gather/gather_bytes.go:61-93 | from the located slice and offset, the first chunk plus the loop write the window as one write of it would |
| Gather.AppendSectionTo | internal/gather/gather_bytes.go:36-96 | a negative offset fails with "invalid offset" and writes nothing; an offset at or past the end writes nothing and succeeds; otherwise the window, cut at the end, is written and a writer error comes back wrapped |
| Gather.AppendSectionToHealthy | internal/gather/gather_bytes.go:36-96 | with a writer that never fails, exactly the window is appended and no error is reported |
| Gather.AppendSectionWindow | internal/gather/gather_bytes_test.go:139-149 | for every `0 <= i <= j <= Length`, `AppendSectionTo(w, i, j-i)` writes exactly `whole[i:j]` without error |
| Gather.AppendSectionFailing | internal/gather/gather_bytes_test.go:145-147 | a writer that rejects every write makes every window starting inside the content fail with that writer's error, which `errors.Is` finds |
| Gather.WriteToStep | internal/gather/gather_bytes.go:195-204 | a successful write of one more slice extends what the writer took by that slice |
| Gather.WriteToFailure | internal/gather/gather_bytes.go:195-204 | a failed slice write leaves the writer as one write of the whole content would, holding the content up to the count |
| Gather.WriteTo | internal/gather/gather_bytes.go:189-207 | the slices are written in order; on success the count is `Length()` and the writer holds the whole content; on a writer error the count is the bytes written so far and that same error is returned |
| Gather.SectionInto | internal/gather/gather_bytes.go:111-116 | `AppendSectionTo` into a fresh in-memory buffer delivers the window at a non-negative offset, and nothing at a negative one |
| Gather.ReadAt | internal/gather/gather_bytes.go:111-116 | `ReadAt` as written: the count is always `len(p)`; the buffer holds the window followed by its old bytes; only a negative offset reports an error |
| Gather.ReadAtOverReports | internal/gather/gather_bytes.go:111-116 | reading past the end still reports `len(p)` bytes and no error, which breaks the `io.ReaderAt` contract |
| Gather.ReadAtOverReportsExample | internal/gather/gather_bytes.go:111-116 | one byte of content read into a two-byte buffer reports 2 bytes and no error |
| Gather.ReadAtCorrected | internal/gather/gather_bytes.go:111-116 | the intended `ReadAt` meets the `io.ReaderAt` contract: the count is the bytes delivered, and a short read ends with `io.EOF` |
| Gather.ReadAtAgreesInRange | internal/gather/gather_bytes.go:111-116 | inside the content the written and the corrected `ReadAt` agree |
| Gather.ReadAtInRange | internal/gather/gather_bytes.go:111-116 | inside the content `ReadAt` delivers exactly the requested window |
| GatherReader.Reader | internal/gather/gather_bytes.go:164-169 | a new reader starts at position 0 over the same bytes |
| GatherReader.Read | internal/gather/gather_bytes.go:127-141 | `Read` returns `min(len(buf), Length-offset)` bytes taken from the position and advances by that count; it reports `io.EOF` exactly when a non-empty buffer is read at the end; the rest of the buffer is untouched |
| GatherReader.ReadViaReadAt | internal/gather/gather_bytes.go:127-141 | away from the end, `Read` equals the source's route: shorten the buffer, call `ReadAt`, advance by its count |
| GatherReader.ReadFromWindow | internal/gather/gather_bytes.go:137-140 | a `ReadAt` result holding the in-range window gives the result `Read` returns |
| GatherReader.Seek | internal/gather/gather_bytes.go:143-162 | a target outside `[0, Length]` fails with "invalid seek" and leaves the reader unchanged; otherwise the position becomes the target computed from `whence`; an unknown `whence` keeps the position |
| GatherReader.ReadThenRest | internal/gather/gather_bytes.go:127-141 | one successful read followed by the content from the new position is the content from the old one |
| GatherReader.ReadToEndIsRest | internal/gather/gather_bytes_test.go:102-109 | reading with a fixed positive buffer until an error, from any position, yields the rest of the content |
| GatherReader.ReadAllIsToByteSlice | internal/gather/gather_bytes_test.go:102-114 | reading a fresh reader to `io.EOF` with a fixed positive buffer yields `ToByteSlice()` |
| GatherReader.CopyStep | internal/gather/gather_bytes.go:242-249 | copying from the slice that holds the position keeps the loop invariant, or fills the buffer with the content from the position |
| GatherReader.CopySkip | internal/gather/gather_bytes.go:237-241 | skipping a slice that ends before the position keeps the loop invariant |
| GatherReader.CopyFrom | internal/gather/gather_bytes.go:236-250 | the copy loop fills `min(len(bs), L-p)` bytes with the content from `p = max(i, 0)` on |
| GatherReader.CopyInto | internal/gather/gather_bytes.go:242-249 | one round of that loop on a slice that reaches the position gives the same result as the whole loop |
| GatherReader.WrapperRead | internal/gather/gather_bytes.go:232-253 | `ReaderWrapper.Read` copies `min(len(bs), L-max(i,0))` bytes of the content from `max(i,0)`, advances `i` by that count and never errors |
| GatherReader.WrapperSeek | internal/gather/gather_bytes.go:267-278 | `ReaderWrapper.Seek` sets the position per `whence` with no bounds check and never errors |
| GatherReader.WrapperSeekMatchesSeek | internal/gather/gather_bytes.go:267-278 | from an in-range position, `ReaderWrapper.Seek` lands where `bytesReadSeekCloser.Seek` does whenever that one accepts the target; where it refuses, the wrapper accepts a position outside the content |
| GatherReader.WrapperReadMatchesReader | internal/gather/gather_bytes.go:127-253 | from an in-range position both readers deliver the same bytes and end at the same position; the wrapper never reports `io.EOF` |
| Features.GetUnsupportedFeatures | repo/open.go:541 | every unsupported entry is a required entry whose feature is not in the supported list, and there are no more of them than required entries |
| Features.UnsupportedMembers | repo/open.go:541 | no unsupported required entry is missed: the unsupported entries are exactly the required entries whose feature is not in the supported list |
| Features.CheckMissing | repo/open.go:541-549 | the loop over the unsupported entries: when it passes, it has warned once per entry with that entry's message; when it fails, the error is an unsupported-feature error raised before warning for every entry |
| Features.GateSupportedHead | repo/open.go:541-549 | a supported first entry leaves the gate's decision to the rest |
| Features.GateWarnedHead | repo/open.go:541-549 | an unsupported first entry that only warns adds its message and leaves the decision to the rest |
| Features.GateBlockingHead | repo/open.go:541-549 | a blocking first entry fails the gate with its own message |
| Features.GateDecision | repo/open.go:541-552 | the gate fails exactly when some entry is unsupported, not warn-only and not ignored; the error is the first such entry's message, after warnings for the unsupported entries before it |
| Features.HandleMissingRequiredFeatures | repo/open.go:533-553 | an error reading the required features is wrapped "required features" and never becomes success; otherwise it succeeds exactly when no entry blocks, and fails with the first blocking entry's message |
| StorageChain.RankedPrepend | repo/open.go:371-477 | adding a lower-ranked wrapper inside a ranked chain keeps it ranked |
| StorageChain.WrapperChain | repo/open.go:371-477 | logging is present iff tracing, read-only iff read-only, retention iff enabled, the monitor iff not permissive; metrics and throttling are always present |
| StorageChain.WrapperChainRanked | repo/open.go:371-477 | the chain applies logging, read-only, metrics, throttling, retention and the monitor in that order, each at most once |
| StorageChain.RankedChainsUnique | repo/open.go:371-477 | two ranked chains holding the same wrappers are equal |
| StorageChain.WrapperChainCharacterized | repo/open.go:371-477 | the built chain is the only ranked chain holding exactly the wrappers the switches enable |
| StorageChain.ProtectedPrefixes | repo/open.go:555-563 | no contract of its own; StorageChain.MatchesAny and StorageChain.RetentionPutHook are stated for any prefix list, this one included |
| StorageChain.MatchesAny | repo/open.go:566-572 | the prefix loop finds a match exactly when some protected prefix starts the blob id |
| StorageChain.RetentionPutHook | repo/open.go:565-574 | a Put to a protected id gets the configured retention mode and period; any other Put keeps its options; no other field changes and the hook never fails |
| StorageChain.OptionsAtStorage | repo/open.go:447-449 | the options reaching the storage are changed only by the retention wrapper, and only when it is in the chain |
| StorageChain.RetentionOnlyWhenEnabled | repo/open.go:442-449 | through the chain that opening builds, a Put's options change only when retention is enabled and the id is protected |
| UpgradeLock.LockCheck | repo/open.go:452-466 | an intent read error is returned as is; otherwise the body fails, with the upgrade-in-progress error, exactly when the connection is not permissive and the intent is locked now by a different owner |
| UpgradeLock.Retried | repo/open.go:467-469 | no contract of its own; stated by UpgradeLock.RetriedThroughWraps and used by UpgradeLock.WaitForUpgrade |
| UpgradeLock.RetriedThroughWraps | repo/open.go:467-469 | the retry predicate sees through any number of wraps: a wrapped upgrade-in-progress error is retried exactly when the bare one is |
| UpgradeLock.SettlesShift | repo/open.go:451-469 | after a retried first attempt, the attempt that settles the wait is found among the rest |
| UpgradeLock.WaitForUpgrade | repo/open.go:451-472 | the wait returns the outcome of the first attempt that is not retried, or cancellation when every attempt is retried |
| UpgradeLock.WaitOutcome | repo/open.go:451-472 | a waiting client never gets the upgrade-in-progress error; without waiting the first attempt decides; the wait succeeds exactly when the settling attempt finds the lock free |
| UpgradeLock.MonitorCallback | repo/open.go:599-638 | a revision already checked on either read passes without reading the intent, and any other revision makes the callback read it; the state moves only after a full check, to the re-read loaded time; intent errors are wrapped; `onFatalError` is called exactly when the gate fails, with the gate's error, which is also returned; once the intent is read, the gate's warnings are logged; a foreign lock fails with the upgrade-in-progress error |
| UpgradeLock.OwnerNeverLockedOut | repo/open.go:628-633 | the upgrade owner, or anyone while the intent is missing, is never refused because of the lock |
| UpgradeLock.GateErrors | repo/open.go:533-553 | the feature gate never fails with the upgrade-in-progress error |
| UpgradeLock.MonitorRetriesUntilClear | repo/open.go:612-635 | after a failed check the next call for the same revision checks again; after a successful one it does not |
| UpgradeLock.RunMonitor | repo/open.go:594-640 | over any sequence of callbacks the state is the initial one or some call's re-read loaded time |
| RepoOpen.ApplyOptionDefaults | repo/open.go:112-121 | nil options become the zero options; a missing fatal handler becomes log-and-exit; nothing else changes |
| RepoOpen.OptionDefaultsIdempotent | repo/open.go:112-121 | filling in defaults twice is the same as once |
| RepoOpen.Open | repo/open.go:101-142 | a path error is wrapped; a load error passes through; a permissive connection that is not read-only is refused; every other loaded configuration is dispatched: one naming an API server goes through the server, any other directly with the absolute path |
| RepoOpen.CacheIntegritySecret | repo/open.go:414-419 | the cache secret is derived from the HMAC secret when the format supports password changes, else from the format encryption key, always with the unique id, purpose "local-cache-integrity" and length 16 |
| RepoOpen.CacheSecretIgnoresOtherKey | repo/open.go:414-419 | the key that was not selected has no influence on the secret |
| RepoOpen.LimitsFromConnectionInfo | repo/open.go:643-658 | a marshal or unmarshal failure gives zero limits; otherwise the unmarshalled limits |
| RepoOpen.EffectiveLimits | repo/open.go:421-424 | a configured override always wins; otherwise the limits come from the connection info |
| RepoOpen.OverrideIgnoresConnectionInfo | repo/open.go:421-424 | with an override, the limits are the override, whatever the connection info and its unmarshalling would give |
| RepoOpen.NoOverrideUsesConnectionInfo | repo/open.go:421-424 | with no override, the limits are those unmarshalled from the connection info, or zero when it cannot be marshalled or unmarshalled |
| RepoOpen.OpenWithConfig | repo/open.go:393-531 | a format-manager error is wrapped "unable to create format manager"; success needs the format manager, the required features, the blob configuration and the lock wait to succeed; the storage it was handed stays innermost, with metrics applied directly around it |
| RepoOpen.OpenDirect | repo/open.go:355-388 | a configuration without storage fails with the storage-not-set error; success needs the storage and the profile buffers to be created; the rest is stated by RepoOpen.OpenDirectSucceeds, RepoOpen.OpenDirectResult and RepoOpen.OpenDirectErrors |
| RepoOpen.OpenDirectSucceeds | repo/open.go:356-531 | a direct open succeeds exactly when every step succeeds: storage set and created, profile buffers, format manager, feature gate, throttler, blob configuration, lock wait, and the three managers |
| RepoOpen.OpenDirectResult | repo/open.go:356-531 | a directly opened repository has the wrapper chain the options and configurations call for, the selected cache secret and limits, and the gate's warnings |
| RepoOpen.OpenDirectErrors | repo/open.go:356-412 | the first failing step decides the error: missing storage, a wrapped storage error, a wrapped format-manager error, or the gate's error unwrapped |
| RepoOpen.OpenRepository | repo/open.go:101-142 | `Open` followed by `openDirect`: a connection exists only for a resolved, loaded configuration that is not permissive-and-writable; one naming an API server succeeds exactly when `openAPIServer` does and otherwise returns its error; any other gives exactly the result of `openDirect` |
| RepoOpen.PermissiveOpenIsReadOnly | repo/open.go:133-141 | a connection that loads caches permissively opens only read-only and never gets the upgrade-lock monitor; any other direct connection always gets it |
| Pems.Sanitize | tools/kats/pems/pems.go:49 | the name part has the input's length, and each character is the lower-cased input character, or `_` where that is an ASCII space, control or punctuation character |
| Pems.SanitizedAlphabet | tools/kats/pems/pems.go:25 | a sanitized name holds only lower-case letters, digits and `_`: no space or control character, and no punctuation but `_` |
| Pems.SanitizeIdempotent | tools/kats/pems/pems.go:49 | sanitizing a sanitized name changes nothing |
| Pems.Decimal | tools/kats/pems/pems.go:55 | `%d` of a non-negative integer is a non-empty string of digits without leading zeros |
| Pems.DecimalRoundTrip | tools/kats/pems/pems.go:55 | parsing the digits of `%d` gives the number back |
| Pems.DecimalInjective | tools/kats/pems/pems.go:55 | distinct numbers have distinct decimal forms |
| Pems.FilenameFromBlockName | tools/kats/pems/pems.go:46-59 | an index of zero or less gives `name.ext`; a positive index gives `name.index.ext` |
| Pems.FilenameShape | tools/kats/pems/pems.go:51-58 | the file name starts with the sanitized name and a dot, and ends with a dot and the extension |
| Pems.FilenamesDistinct | tools/kats/pems/pems.go:52-58 | for one block name and extension, distinct positive indices give distinct names, and a positive index never gives the unindexed name |

## Left out

- The writer fault model. A faulty writer accepts bytes up to a budget, and the write that reaches the budget stores what fits, reports that many bytes and fails. Writers that fail a later call after storing nothing are not represented, and neither are writers whose reported count differs from what they kept or that fail and then recover. The "as one write would" contracts of Gather.WriteRest, Gather.WriteFrom, Gather.AppendSectionTo, Gather.WriteToFailure and Gather.WriteTo hold for writers of this kind only.
- `Options` is taken by value. `Open` fills in the default fatal handler through the caller's own `*Options` (repo/open.go:116-121), and the caller sees that change even when `Open` fails. RepoOpen.ApplyOptionDefaults returns a new record instead, and the in-place update is not modelled.
- Concurrency: the read/write mutex and double-checked locking of the upgrade-lock monitor (repo/open.go:594-616). The callback is modelled as running alone. That is also why the fast path checks both loaded-time reads in one step.
- Retry and backoff timing of the open-time lock wait. The wait is a sequence of attempts. Running out of attempts stands for the context being cancelled (`Cancelled`).
- The throttler's token bucket, `throttlingWindow` and the float constant `throttleBucketInitialFill`. Only whether creating the throttler fails is modelled.
- The storage wrappers' own behaviour (logging, read-only, metrics, throttling, `beforeop`), `format.Manager`, `newRefCountedCloser` and the shared-content, object and manifest managers. These are code outside this model, so each appears only as a wrapper name or as a possible error.
- `format.DeriveKeyFromMasterKey` and the cache protection. The derivation is kept symbolic as its arguments.
- JSON marshalling in `throttlingLimitsFromConnectionInfo`. Marshalling is an optional string and unmarshalling a supplied partial function. `Limits` are opaque.
- `openAPIServer` (repo/open.go:179-213). Only whether it fails is modelled, as the `apiServer` collaborator, whose error is returned as is. Creating and closing the base storage, `LoadConfigFromFile`, `filepath.Abs` and `LocalConfig.ApplyDefaults` are also left out. Their results are parameters. The client options are taken as stored.
- Profiling and PEM dumping (`StartProfileBuffers`, `StopProfileBuffers`, `DumpPem`). Only whether starting the profile buffers fails is modelled.
- `CreateOutFile`, `TryWriteFile`, `ExportPEMAsFile` and `ExportPEMsAsFiles`. These are file-system I/O and `pem.Decode`.
- FilenameFromBlockName: requires ASCII input. `strings.ToLower` and the POSIX classes are modelled for ASCII only.
- `ReaderWrapper`'s `Reader`, `Write`, `WriteAt` and `ReadAt` stubs (internal/gather/gather_bytes.go:228-230, 255-265). They return fixed values and touch nothing.
- Go's 64-bit `int` and `int64`. Integers are unbounded, so the model leaves out every case where an addition in the source wraps around, even on small contents:
  - `ReaderWrapper.Seek` (internal/gather/gather_bytes.go:271-275) with an offset near 2^63. `q.i += i` or `int64(l) + i` wraps to a negative position, from which `Read` reads from the start. `WrapperSeek` keeps the exact sum, and `WrapperRead` then reads nothing.
  - `AppendSectionTo` with a size near `MaxInt` and an offset of 1 or more inside a slice. `offset+size` (line 63) wraps negative, the whole size becomes the first chunk, and the slice at line 70 panics. The model cuts the window at the end of the content instead.
  - `ReaderWrapper.Read`'s running total and `Length()` beyond 2^63 bytes.
- `bytesReadSeekCloser.Close`. It always returns nil.
- `feature.GetUnsupportedFeatures` is code outside this model. It is assumed to keep the unsupported required entries in order. `UnsupportedMessage()` is taken as a field of each entry.
- `IsLocked` is code outside this model. It is a function of time, and its second result is discarded, as the code does. A missing intent is taken as locking no one in the open-time check as well as in the monitor.
- `IsRetentionEnabled()` is a boolean field of the blob configuration. The protected prefixes' values come from other packages and are parameters, with their order kept.
- AppendSectionTo: requires `size >= 0`. A negative size makes the Go code slice out of range (a panic) once the window starts inside the content.
- RepoOpen.OpenDirectErrors: states the errors of the steps up to the feature gate only. The later steps' errors follow the same pattern in `OpenWithConfig`, and `OpenDirectSucceeds` states when any of them occurs.

## Findings

| source | as written | input that shows it | evidently intended | confidence | as-written member | corrected member |
|---|---|---|---|---|---|---|
| internal/gather/gather_bytes.go:111-116 | `ReadAt` always returns `len(p)` as the count and the error of `AppendSectionTo`, which is nil whenever the offset is non-negative, even when fewer bytes (or none) were available | content of one byte `[7]`, a two-byte buffer, offset 0: the count is 2 and there is no error, but only one byte was delivered | the count is the number of bytes copied, and a short read returns `io.EOF`, as `io.ReaderAt` requires | medium; not executed | Gather.ReadAt, with Gather.ReadAtOverReports and Gather.ReadAtOverReportsExample | Gather.ReadAtCorrected, proved to meet the contract and to agree with `ReadAt` in range (Gather.ReadAtAgreesInRange) |

`bytesReadSeekCloser.Read` only calls `ReadAt` on windows inside the content,
so the reader is unaffected (GatherReader.ReadViaReadAt).

=== FILE: common.dfy ===
/** Values shared by every part of the model: bytes, optional values,
    results, and the errors the modelled code returns or propagates. */
module Common {

  /** One octet, as Go's `byte`. */
  newtype byte = x: int | 0 <= x < 256

  datatype Option<+T> = None | Some(value: T)

  /** A value or the error that prevented it, as Go's `(T, error)` pair. */
  datatype Result<+T> = Ok(value: T) | Err(error: Error)

  /** The errors of the modelled code.  `Failure(id)` stands for an opaque
      error produced by a collaborator (a writer, the storage, the format
      manager); `Wrapped` is `errors.Wrap(cause, context)`, which keeps the
      cause reachable; every other constructor is an error created in place
      (`errors.Errorf`, `io.EOF`, a package-level sentinel). */
  datatype Error =
    | Failure(id: nat)
    | Wrapped(context: string, cause: Error)
    | InvalidOffset
    | InvalidSeek
    | EOF
    | UpgradeInProgress
    | Unsupported(message: string)
    | PermissiveCacheLoadingNotReadOnly
    | StorageNotSet
    | Cancelled

  /** `errors.Is(err, target)`: `err` is `target` or wraps it at some depth. */
  predicate Is(err: Error, target: Error)
  {
    err == target || (err.Wrapped? && Is(err.cause, target))
  }

  function Min(a: int, b: int): int
  {
    if a <= b then a else b
  }

  function Max(a: int, b: int): int
  {
    if a >= b then a else b
  }
}

=== FILE: features.dfy ===
/** The required-feature gate of `repo/open.go`: a repository lists the
    features a client needs to open it, and a client that lacks one either
    warns (when the feature says so, or when the test-only flag asks to
    ignore missing features) or refuses to open. */
module Features {
  import opened Common

  /** The features this client supports (`supportedFeatures`). */
  const SupportedFeatures: seq<string> := ["index-v1", "index-v2"]

  /** One entry of the repository's required features: the feature name,
      whether a client that does not understand it should only warn, and
      the message `UnsupportedMessage()` produces for it. */
  datatype RequiredFeature = RequiredFeature(feature: string, warnOnly: bool, unsupportedMessage: string)

  /** `feature.GetUnsupportedFeatures`, whose code is not part of this
      model: assumed to keep, in order, the required entries whose feature
      is not supported.  Every entry it keeps is a required entry whose
      feature is not in the supported list. */
  function GetUnsupportedFeatures(required: seq<RequiredFeature>, supported: seq<string>): (r: seq<RequiredFeature>)
    ensures |r| <= |required|
    ensures forall k :: 0 <= k < |r| ==> r[k] in required && r[k].feature !in supported
  {
    if |required| == 0 then []
    else
      var rest := GetUnsupportedFeatures(required[1..], supported);
      (if required[0].feature in supported then [] else [required[0]]) + rest
  }

  /** The unsupported entries are exactly the required entries whose
      feature is not supported: none is missed. */
  lemma {:induction false} UnsupportedMembers(required: seq<RequiredFeature>, supported: seq<string>)
    ensures forall f :: f in GetUnsupportedFeatures(required, supported) <==> f in required && f.feature !in supported
  {
    if |required| > 0 {
      UnsupportedMembers(required[1..], supported);
      assert forall f :: f in required <==> f == required[0] || f in required[1..];
    }
  }

  /** The messages of a list of features, in order. */
  function Messages(fs: seq<RequiredFeature>): (r: seq<string>)
    ensures |r| == |fs|
    ensures forall k :: 0 <= k < |fs| ==> r[k] == fs[k].unsupportedMessage
  {
    if |fs| == 0 then [] else [fs[0].unsupportedMessage] + Messages(fs[1..])
  }

  /** A required feature that makes opening fail. */
  predicate Blocking(f: RequiredFeature, ignore: bool)
  {
    f.feature !in SupportedFeatures && !f.warnOnly && !ignore
  }

  /** What the gate reports: the warnings it logged, and the error, if any. */
  datatype GateOutcome = GateOutcome(warnings: seq<string>, err: Option<Error>)

  /** The loop over the missing features: warn and go on, or stop at the
      first one that neither warns nor is ignored. */
  function CheckMissing(missing: seq<RequiredFeature>, ignore: bool): (r: GateOutcome)
    ensures r.err.None? ==> r.warnings == Messages(missing)
    ensures r.err.Some? ==> r.err.value.Unsupported? && |r.warnings| < |missing|
  {
    if |missing| == 0 then GateOutcome([], None)
    else if ignore || missing[0].warnOnly then
      var rest := CheckMissing(missing[1..], ignore);
      GateOutcome([missing[0].unsupportedMessage] + rest.warnings, rest.err)
    else
      GateOutcome([], Some(Unsupported(missing[0].unsupportedMessage)))
  }

  /** The gate over a list of required features that was read successfully. */
  function Gate(required: seq<RequiredFeature>, ignore: bool): GateOutcome
  {
    CheckMissing(GetUnsupportedFeatures(required, SupportedFeatures), ignore)
  }

  /** `k` is the first blocking entry of `required`. */
  ghost predicate FirstBlocking(required: seq<RequiredFeature>, ignore: bool, k: int)
  {
    && 0 <= k < |required| && Blocking(required[k], ignore)
    && (forall m :: 0 <= m < k ==> !Blocking(required[m], ignore))
  }

  /** What the gate promises: success exactly when no entry blocks, with a
      warning per unsupported entry; otherwise the message of the first
      blocking entry, after warnings for the unsupported ones before it. */
  ghost predicate GateSpec(required: seq<RequiredFeature>, ignore: bool, r: GateOutcome)
  {
    && (r.err.None? <==> forall k :: 0 <= k < |required| ==> !Blocking(required[k], ignore))
    && (r.err.None? ==> r.warnings == Messages(GetUnsupportedFeatures(required, SupportedFeatures)))
    && (r.err.Some? ==>
          exists k :: FirstBlocking(required, ignore, k)
            && r.err == Some(Unsupported(required[k].unsupportedMessage))
            && r.warnings == Messages(GetUnsupportedFeatures(required[..k], SupportedFeatures)))
  }

  lemma PrefixTail(s: seq<RequiredFeature>, k: nat)
    requires k < |s|
    ensures s[..k + 1][1..] == s[1..][..k]
    ensures s[..k + 1][0] == s[0]
  {
  }

  /** A supported first entry contributes nothing to the unsupported list. */
  lemma SupportedHeadDropped(s: seq<RequiredFeature>)
    requires |s| > 0 && s[0].feature in SupportedFeatures
    ensures GetUnsupportedFeatures(s, SupportedFeatures) == GetUnsupportedFeatures(s[1..], SupportedFeatures)
  {
  }

  /** An unsupported first entry heads the unsupported list and its
      message heads the warnings. */
  lemma UnsupportedHeadKept(s: seq<RequiredFeature>)
    requires |s| > 0 && s[0].feature !in SupportedFeatures
    ensures GetUnsupportedFeatures(s, SupportedFeatures) == [s[0]] + GetUnsupportedFeatures(s[1..], SupportedFeatures)
    ensures Messages(GetUnsupportedFeatures(s, SupportedFeatures))
         == [s[0].unsupportedMessage] + Messages(GetUnsupportedFeatures(s[1..], SupportedFeatures))
  {
    var missing := GetUnsupportedFeatures(s, SupportedFeatures);
    assert missing[1..] == GetUnsupportedFeatures(s[1..], SupportedFeatures);
  }

  /** No entry blocks when the first does not and no later one does. */
  lemma NoneBlockingCons(required: seq<RequiredFeature>, ignore: bool)
    requires |required| > 0 && !Blocking(required[0], ignore)
    requires forall k :: 0 <= k < |required[1..]| ==> !Blocking(required[1..][k], ignore)
    ensures forall k :: 0 <= k < |required| ==> !Blocking(required[k], ignore)
  {
    forall k | 0 <= k < |required| ensures !Blocking(required[k], ignore) {
      if k > 0 {
        assert required[k] == required[1..][k - 1];
      }
    }
  }

  /** A first blocking entry `k'` of the tail is the first blocking entry
      `k' + 1` of the whole list when its head does not block. */
  lemma FirstBlockingCons(required: seq<RequiredFeature>, ignore: bool, k': int)
    requires |required| > 0 && !Blocking(required[0], ignore)
    requires FirstBlocking(required[1..], ignore, k')
    ensures FirstBlocking(required, ignore, k' + 1) && required[k' + 1] == required[1..][k']
  {
  }

  lemma GateSupportedHeadBlocked(required: seq<RequiredFeature>, ignore: bool)
    requires |required| > 0 && required[0].feature in SupportedFeatures
    requires GateSpec(required[1..], ignore, Gate(required[1..], ignore))
    requires Gate(required[1..], ignore).err.Some?
    ensures GateSpec(required, ignore, Gate(required, ignore))
  {
    var rest := required[1..];
    SupportedHeadDropped(required);
    var r := Gate(rest, ignore);
    var k' :| FirstBlocking(rest, ignore, k')
          && r.err == Some(Unsupported(rest[k'].unsupportedMessage))
          && r.warnings == Messages(GetUnsupportedFeatures(rest[..k'], SupportedFeatures));
    PrefixTail(required, k');
    SupportedHeadDropped(required[..k' + 1]);
    FirstBlockingCons(required, ignore, k');
  }

  lemma GateSupportedHead(required: seq<RequiredFeature>, ignore: bool)
    requires |required| > 0 && required[0].feature in SupportedFeatures
    requires GateSpec(required[1..], ignore, Gate(required[1..], ignore))
    ensures GateSpec(required, ignore, Gate(required, ignore))
  {
    if Gate(required[1..], ignore).err.Some? {
      GateSupportedHeadBlocked(required, ignore);
    } else {
      SupportedHeadDropped(required);
      NoneBlockingCons(required, ignore);
    }
  }

  lemma GateWarnedHeadBlocked(required: seq<RequiredFeature>, ignore: bool)
    requires |required| > 0 && required[0].feature !in SupportedFeatures
    requires ignore || required[0].warnOnly
    requires GateSpec(required[1..], ignore, Gate(required[1..], ignore))
    requires Gate(required[1..], ignore).err.Some?
    ensures GateSpec(required, ignore, Gate(required, ignore))
  {
    var f := required[0];
    var rest := required[1..];
    UnsupportedHeadKept(required);
    var r := Gate(rest, ignore);
    assert Gate(required, ignore) == GateOutcome([f.unsupportedMessage] + r.warnings, r.err);
    var k' :| FirstBlocking(rest, ignore, k')
          && r.err == Some(Unsupported(rest[k'].unsupportedMessage))
          && r.warnings == Messages(GetUnsupportedFeatures(rest[..k'], SupportedFeatures));
    PrefixTail(required, k');
    UnsupportedHeadKept(required[..k' + 1]);
    FirstBlockingCons(required, ignore, k');
  }

  lemma GateWarnedHead(required: seq<RequiredFeature>, ignore: bool)
    requires |required| > 0 && required[0].feature !in SupportedFeatures
    requires ignore || required[0].warnOnly
    requires GateSpec(required[1..], ignore, Gate(required[1..], ignore))
    ensures GateSpec(required, ignore, Gate(required, ignore))
  {
    if Gate(required[1..], ignore).err.Some? {
      GateWarnedHeadBlocked(required, ignore);
    } else {
      UnsupportedHeadKept(required);
      assert Gate(required, ignore)
          == GateOutcome([required[0].unsupportedMessage] + Gate(required[1..], ignore).warnings, None);
      NoneBlockingCons(required, ignore);
    }
  }

  lemma GateBlockingHead(required: seq<RequiredFeature>, ignore: bool)
    requires |required| > 0 && Blocking(required[0], ignore)
    ensures GateSpec(required, ignore, Gate(required, ignore))
  {
    assert required[..0] == [];
    assert FirstBlocking(required, ignore, 0);
  }

  /** The gate meets its specification on every list of required features. */
  lemma {:induction false} GateDecision(required: seq<RequiredFeature>, ignore: bool)
    ensures GateSpec(required, ignore, Gate(required, ignore))
    decreases |required|
  {
    if |required| > 0 {
      var f := required[0];
      if Blocking(f, ignore) {
        GateBlockingHead(required, ignore);
      } else {
        GateDecision(required[1..], ignore);
        if f.feature in SupportedFeatures {
          GateSupportedHead(required, ignore);
        } else {
          GateWarnedHead(required, ignore);
        }
      }
    }
  }

  /** `handleMissingRequiredFeatures`: an error reading the required
      features is wrapped and returned; otherwise the gate decides. */
  function HandleMissingRequiredFeatures(required: Result<seq<RequiredFeature>>, ignore: bool): (r: GateOutcome)
    ensures required.Err? ==> r == GateOutcome([], Some(Wrapped("required features", required.error)))
    ensures required.Ok? ==>
      (r.err.None? <==> forall k :: 0 <= k < |required.value| ==> !Blocking(required.value[k], ignore))
    ensures required.Ok? && r.err.None? ==>
      r.warnings == Messages(GetUnsupportedFeatures(required.value, SupportedFeatures))
    ensures required.Ok? && r.err.Some? ==>
      exists k :: 0 <= k < |required.value| && Blocking(required.value[k], ignore)
        && (forall m :: 0 <= m < k ==> !Blocking(required.value[m], ignore))
        && r.err == Some(Unsupported(required.value[k].unsupportedMessage))
  {
    match required
    case Err(e) => GateOutcome([], Some(Wrapped("required features", e)))
    case Ok(features) =>
      GateDecision(features, ignore);
      Gate(features, ignore)
  }
}

=== FILE: gather.dfy ===
/** Gathered byte sequences: a list of byte slices that together stand for
    one logical byte string (`gather.Bytes`), and the operations that read
    it out: its length, appending it to a slice, writing it or a window of
    it to a writer, and random-access reads. */
module Gather {
  import opened Common

  /** The logical byte string that a list of slices stands for. */
  function Concat(slices: seq<seq<byte>>): seq<byte>
  {
    if |slices| == 0 then [] else slices[0] + Concat(slices[1..])
  }

  /** Where slice `i` starts inside the concatenation. */
  function Start(slices: seq<seq<byte>>, i: nat): nat
    requires i <= |slices|
  {
    |Concat(slices[..i])|
  }

  /** A `gather.Bytes` value.  `invalidated` is the mark that `invalidate`
      leaves behind; every operation that asserts validity requires it unset. */
  datatype Bytes = Bytes(slices: seq<seq<byte>>, invalidated: bool)
  {
    predicate Valid()
    {
      !invalidated
    }

    /** The logical content. */
    function Whole(): seq<byte>
    {
      Concat(slices)
    }
  }

  /** `invalidate`: drops the slices and marks the value unusable. */
  function Invalidate(b: Bytes): (r: Bytes)
    ensures !r.Valid()
    ensures r.slices == []
  {
    Bytes([], true)
  }

  // ---------------------------------------------------------------------
  // Facts about concatenation

  lemma {:induction false} ConcatAppend(a: seq<seq<byte>>, b: seq<seq<byte>>)
    ensures Concat(a + b) == Concat(a) + Concat(b)
    decreases |a|
  {
    if |a| == 0 {
      assert a + b == b;
    } else {
      assert (a + b)[1..] == a[1..] + b;
      ConcatAppend(a[1..], b);
    }
  }

  lemma ConcatSplit(slices: seq<seq<byte>>, i: nat)
    requires i <= |slices|
    ensures Concat(slices) == Concat(slices[..i]) + Concat(slices[i..])
  {
    assert slices == slices[..i] + slices[i..];
    ConcatAppend(slices[..i], slices[i..]);
  }

  /** The concatenation seen from the start of slice `i` on. */
  lemma SuffixFrom(slices: seq<seq<byte>>, i: nat)
    requires i <= |slices|
    ensures Start(slices, i) <= |Concat(slices)|
    ensures Concat(slices)[Start(slices, i)..] == Concat(slices[i..])
  {
    ConcatSplit(slices, i);
  }

  lemma StartStep(slices: seq<seq<byte>>, i: nat)
    requires i < |slices|
    ensures Start(slices, i + 1) == Start(slices, i) + |slices[i]|
  {
    assert slices[..i + 1] == slices[..i] + [slices[i]];
    ConcatAppend(slices[..i], [slices[i]]);
    assert Concat([slices[i]]) == slices[i] + Concat([]);
  }

  /** Bytes `x` to `y` of slice `i` sit at `Start(i) + x` to `Start(i) + y`
      of the concatenation. */
  lemma Window(slices: seq<seq<byte>>, i: nat, x: nat, y: nat)
    requires i < |slices|
    requires x <= y <= |slices[i]|
    ensures Start(slices, i) + y <= |Concat(slices)|
    ensures Concat(slices)[Start(slices, i) + x..Start(slices, i) + y] == slices[i][x..y]
  {
    SuffixFrom(slices, i);
    var whole := Concat(slices);
    var s := Start(slices, i);
    assert Concat(slices[i..]) == slices[i] + Concat(slices[i + 1..]) by {
      assert slices[i..][1..] == slices[i + 1..];
    }
    assert whole[s..] == slices[i] + Concat(slices[i + 1..]);
    assert whole[s + x..s + y] == whole[s..][x..y];
  }

  // ---------------------------------------------------------------------
  // Length, AppendToSlice, ToByteSlice, FromSlice

  /** The loop of `Length`: the slice lengths added up. */
  function SumLengths(slices: seq<seq<byte>>): (n: nat)
    ensures n == |Concat(slices)|
  {
    if |slices| == 0 then 0 else |slices[0]| + SumLengths(slices[1..])
  }

  /** `Bytes.Length`: the combined length of all slices. */
  function Length(b: Bytes): (n: nat)
    requires b.Valid()
    ensures n == |b.Whole()|
  {
    SumLengths(b.slices)
  }

  /** The loop of `AppendToSlice`: each slice appended in turn. */
  function AppendAll(slices: seq<seq<byte>>, output: seq<byte>): (r: seq<byte>)
    ensures r == output + Concat(slices)
  {
    if |slices| == 0 then output
    else
      assert output + Concat(slices) == (output + slices[0]) + Concat(slices[1..]);
      AppendAll(slices[1..], output + slices[0])
  }

  /** `Bytes.AppendToSlice`: `output` followed by the content. */
  function AppendToSlice(b: Bytes, output: seq<byte>): (r: seq<byte>)
    requires b.Valid()
    ensures r == output + b.Whole()
    ensures |r| == |output| + Length(b)
  {
    AppendAll(b.slices, output)
  }

  /** `Bytes.ToByteSlice`: the content as one fresh slice. */
  function ToByteSlice(b: Bytes): (r: seq<byte>)
    requires b.Valid()
    ensures r == b.Whole()
    ensures |r| == Length(b)
  {
    AppendToSlice(b, [])
  }

  /** `FromSlice`: a value holding exactly one slice. */
  function FromSlice(data: seq<byte>): (r: Bytes)
    ensures r.Valid()
    ensures r.slices == [data]
    ensures Length(r) == |data|
    ensures ToByteSlice(r) == data
  {
    var r := Bytes([data], false);
    assert Concat(r.slices) == data + Concat([]);
    r
  }

  // ---------------------------------------------------------------------
  // Writers

  /** An injected fault: the writer takes fewer than `budget` more bytes
      successfully; the write that would reach the budget stores only what
      fits and fails with `error`.  A budget of 0 is a writer that rejects
      every write, even an empty one. */
  datatype Fault = Fault(budget: nat, error: Error)

  /** An `io.Writer`: what it has received so far and an optional fault. */
  datatype Writer = Writer(out: seq<byte>, fault: Option<Fault>)
  {
    predicate Healthy()
    {
      fault.None?
    }
  }

  datatype WriteStep = WriteStep(w: Writer, n: nat, err: Option<Error>)

  /** `w.Write(p)`. */
  function Write(w: Writer, p: seq<byte>): (r: WriteStep)
    ensures r.n <= |p|
    ensures r.w.out == w.out + p[..r.n]
    ensures r.n < |p| ==> r.err.Some?
    ensures r.err.Some? ==> w.fault.Some? && r.err.value == w.fault.value.error
    ensures w.Healthy() <==> r.w.Healthy()
    ensures w.Healthy() ==> r.err.None?
  {
    match w.fault
    case None => WriteStep(w.(out := w.out + p), |p|, None)
    case Some(f) =>
      if |p| < f.budget then
        WriteStep(Writer(w.out + p, Some(f.(budget := f.budget - |p|))), |p|, None)
      else
        WriteStep(Writer(w.out + p[..f.budget], Some(f.(budget := 0))), f.budget, Some(f.error))
  }

  /** Two successful-then-any writes leave the writer as one write of both parts. */
  lemma WriteThenWrite(w: Writer, a: seq<byte>, b: seq<byte>)
    requires Write(w, a).err.None?
    ensures Write(Write(w, a).w, b).w == Write(w, a + b).w
    ensures Write(Write(w, a).w, b).err == Write(w, a + b).err
  {
    if w.fault.Some? {
      var k := w.fault.value.budget;
      if |a| + |b| >= k {
        assert (a + b)[..k] == a + b[..k - |a|];
      }
    }
  }

  /** Once a write fails, offering more data in the same write changes nothing. */
  lemma FailurePersists(w: Writer, a: seq<byte>, b: seq<byte>)
    requires Write(w, a).err.Some?
    ensures Write(w, a + b).w == Write(w, a).w
    ensures Write(w, a + b).err == Write(w, a).err
  {
    var k := w.fault.value.budget;
    assert (a + b)[..k] == a[..k];
  }

  // ---------------------------------------------------------------------
  // AppendSectionTo

  datatype SectionResult = SectionResult(w: Writer, err: Option<Error>)

  /** How `AppendSectionTo` reports a writer error. */
  function WrapAppend(err: Option<Error>): Option<Error>
  {
    match err
    case None => None
    case Some(e) => Some(Wrapped("error appending", e))
  }

  /** The first loop of `AppendSectionTo`: skip whole slices until the
      remaining offset falls inside one. */
  function Locate(slices: seq<seq<byte>>, i: nat, off: nat): (r: (nat, nat))
    requires i <= |slices|
    decreases |slices| - i
    ensures i <= r.0 <= |slices|
    ensures Start(slices, i) + off == Start(slices, r.0) + r.1
    ensures r.0 < |slices| ==> r.1 < |slices[r.0]|
  {
    if i == |slices| || off < |slices[i]| then (i, off)
    else
      StartStep(slices, i);
      Locate(slices, i + 1, off - |slices[i]|)
  }

  /** The second loop of `AppendSectionTo`: from slice `ndx` on, write from
      the start of each slice until `size` bytes are written or the slices
      run out. */
  function WriteRest(slices: seq<seq<byte>>, ndx: nat, size: nat, w: Writer): (r: SectionResult)
    requires ndx <= |slices|
    decreases |slices| - ndx
    ensures size == 0 || ndx == |slices| ==> r == SectionResult(w, None)
    ensures size > 0 && ndx < |slices| ==>
      var rest := Concat(slices[ndx..]);
      var st := Write(w, rest[..Min(size, |rest|)]);
      r == SectionResult(st.w, WrapAppend(st.err))
  {
    if size > 0 && ndx < |slices| then
      var s := slices[ndx];
      var l := if size > |s| then |s| else size;
      var st := Write(w, s[0..l]);
      var rest := Concat(slices[ndx..]);
      assert rest == s + Concat(slices[ndx + 1..]) by {
        assert slices[ndx..][1..] == slices[ndx + 1..];
      }
      assert rest[..Min(size, |rest|)] == s[0..l] + Concat(slices[ndx + 1..])[..Min(size - l, |rest| - l)];
      if st.err.Some? then
        FailurePersists(w, s[0..l], Concat(slices[ndx + 1..])[..Min(size - l, |rest| - l)]);
        SectionResult(st.w, WrapAppend(st.err))
      else
        WriteThenWrite(w, s[0..l], Concat(slices[ndx + 1..])[..Min(size - l, |rest| - l)]);
        if size - l > 0 && ndx + 1 < |slices| then
          WriteRest(slices, ndx + 1, size - l, st.w)
        else
          assert s[0..l] == rest[..Min(size, |rest|)] by {
            if ndx + 1 == |slices| {
              assert Concat(slices[ndx + 1..]) == [];
            }
          }
          WriteRest(slices, ndx + 1, size - l, st.w)
    else
      SectionResult(w, None)
  }

  /** `AppendSectionTo` once the window is known to start in slice `ndx`,
      `off` bytes in: the first, possibly partial, chunk and then the rest. */
  function WriteFrom(slices: seq<seq<byte>>, ndx: nat, off: nat, size: nat, w: Writer): (r: SectionResult)
    requires ndx < |slices| && off < |slices[ndx]|
    ensures
      var st := Write(w, Section(Concat(slices[ndx..]), off, size));
      r == SectionResult(st.w, WrapAppend(st.err))
  {
    var s := slices[ndx];
    var first := if off + size <= |s| then size else |s| - off;
    var st := Write(w, s[off..off + first]);
    var rest := Concat(slices[ndx..]);
    var tail := Concat(slices[ndx + 1..]);
    assert rest == s + tail by {
      assert slices[ndx..][1..] == slices[ndx + 1..];
    }
    var more := tail[..Min(size - first, |tail|)];
    assert rest[off..Min(off + size, |rest|)] == s[off..off + first] + more;
    if st.err.Some? then
      FailurePersists(w, s[off..off + first], more);
      SectionResult(st.w, WrapAppend(st.err))
    else
      WriteThenWrite(w, s[off..off + first], more);
      WriteRest(slices, ndx + 1, size - first, st.w)
  }

  /** `Bytes.AppendSectionTo(w, offset, size)`: writes the window of the
      content that starts at `offset` and is `size` long, cut at the end.
      A negative `size` makes the Go code slice out of range once the
      window starts inside the content, so it is excluded. */
  function AppendSectionTo(b: Bytes, w: Writer, offset: int, size: int): (r: SectionResult)
    requires b.Valid()
    requires size >= 0
    ensures offset < 0 ==> r == SectionResult(w, Some(InvalidOffset))
    ensures offset >= Length(b) ==> r == SectionResult(w, None)
    ensures 0 <= offset < Length(b) ==>
      var st := Write(w, Section(b.Whole(), offset, size));
      r == SectionResult(st.w, WrapAppend(st.err))
  {
    if offset < 0 then SectionResult(w, Some(InvalidOffset))
    else
      var loc := Locate(b.slices, 0, offset);
      assert b.slices[..0] == [];
      if loc.0 == |b.slices| then
        assert b.slices[..loc.0] == b.slices;
        SectionResult(w, None)
      else
        SuffixFrom(b.slices, loc.0);
        SectionOfSuffix(b.Whole(), Start(b.slices, loc.0), loc.1, size);
        assert offset == Start(b.slices, loc.0) + loc.1;
        WriteFrom(b.slices, loc.0, loc.1, size, w)
  }

  /** A window of the content, seen from a later starting point. */
  lemma SectionOfSuffix(whole: seq<byte>, start: nat, off: nat, size: nat)
    requires start + off <= |whole|
    ensures Section(whole, start + off, size) == Section(whole[start..], off, size)
  {
  }

  /** With a writer that never fails, `AppendSectionTo` appends the window
      (nothing when it starts at or past the end) and reports no error. */
  lemma AppendSectionToHealthy(b: Bytes, w: Writer, offset: nat, size: nat)
    requires b.Valid() && w.Healthy()
    ensures AppendSectionTo(b, w, offset, size) == SectionResult(w.(out := w.out + Section(b.Whole(), offset, size)), None)
  {
    if offset >= Length(b) {
      assert w.out + Section(b.Whole(), offset, size) == w.out;
    }
  }

  /** Every window `[i, j)` of the content is written exactly, as the
      test enumerating all windows expects. */
  lemma AppendSectionWindow(b: Bytes, w: Writer, i: int, j: int)
    requires b.Valid() && w.Healthy()
    requires 0 <= i <= j <= Length(b)
    ensures AppendSectionTo(b, w, i, j - i) == SectionResult(w.(out := w.out + b.Whole()[i..j]), None)
  {
    AppendSectionToHealthy(b, w, i, j - i);
  }

  /** A writer that rejects every write makes every window that starts
      inside the content fail with its error, wrapped once. */
  lemma AppendSectionFailing(b: Bytes, out: seq<byte>, e: Error, i: int, j: int)
    requires b.Valid()
    requires 0 <= i < Length(b) && i <= j
    ensures var r := AppendSectionTo(b, Writer(out, Some(Fault(0, e))), i, j - i);
      r.err == Some(Wrapped("error appending", e)) && r.w.out == out && Is(r.err.value, e)
  {
  }

  // ---------------------------------------------------------------------
  // WriteTo

  /** What taking one more slice does to the concatenation so far, and how
      the whole splits around it. */
  lemma SliceStep(slices: seq<seq<byte>>, i: nat)
    requires i < |slices|
    ensures Start(slices, i + 1) == Start(slices, i) + |slices[i]|
    ensures Concat(slices[..i + 1]) == Concat(slices[..i]) + slices[i]
    ensures Concat(slices) == Concat(slices[..i + 1]) + Concat(slices[i + 1..])
  {
    StartStep(slices, i);
    assert slices[..i + 1] == slices[..i] + [slices[i]];
    ConcatAppend(slices[..i], [slices[i]]);
    assert Concat([slices[i]]) == slices[i] + Concat([]);
    ConcatSplit(slices, i + 1);
  }

  lemma PrefixThrough(a: seq<byte>, s: seq<byte>, rest: seq<byte>, k: nat)
    requires k <= |s|
    ensures (a + s + rest)[..|a| + k] == a + s[..k]
  {
  }

  /** What `WriteTo`'s loop knows of the writer `w0` after the first `i`
      slices: it is the original writer, or one that took their
      concatenation without error. */
  ghost predicate WroteSlices(w: Writer, slices: seq<seq<byte>>, i: nat, w0: Writer)
    requires i <= |slices|
  {
    && (i == 0 ==> w0 == w)
    && (i > 0 ==> w0 == Write(w, Concat(slices[..i])).w && Write(w, Concat(slices[..i])).err.None?)
    && w0.out == w.out + Concat(slices[..i])
  }

  /** A successful round of `WriteTo`'s loop extends what the writer took
      by one slice. */
  lemma WriteToStep(w: Writer, slices: seq<seq<byte>>, i: nat, w0: Writer)
    requires i < |slices| && WroteSlices(w, slices, i, w0)
    requires Write(w0, slices[i]).err.None?
    ensures Start(slices, i + 1) == Start(slices, i) + |slices[i]|
    ensures WroteSlices(w, slices, i + 1, Write(w0, slices[i]).w)
  {
    SliceStep(slices, i);
    if i > 0 {
      WriteThenWrite(w, Concat(slices[..i]), slices[i]);
    }
  }

  /** A failed round leaves the writer as one write of the whole content
      would, holding the content up to the count. */
  lemma WriteToFailure(w: Writer, slices: seq<seq<byte>>, i: nat, w0: Writer)
    requires i < |slices| && WroteSlices(w, slices, i, w0)
    requires Write(w0, slices[i]).err.Some?
    ensures var st := Write(w0, slices[i]);
      && st.w == Write(w, Concat(slices)).w && st.err == Write(w, Concat(slices)).err
      && Start(slices, i) + st.n <= |Concat(slices)|
      && st.w.out == w.out + Concat(slices)[..Start(slices, i) + st.n]
  {
    var prefix := Concat(slices[..i]);
    var st := Write(w0, slices[i]);
    SliceStep(slices, i);
    if i > 0 {
      WriteThenWrite(w, prefix, slices[i]);
    }
    FailurePersists(w, prefix + slices[i], Concat(slices[i + 1..]));
    PrefixThrough(prefix, slices[i], Concat(slices[i + 1..]), st.n);
  }

  /** `Bytes.WriteTo(w)`: writes the slices in order, stopping at the first
      writer error, and returns how many bytes the writer took. */
  method WriteTo(b: Bytes, w: Writer) returns (w': Writer, n: nat, err: Option<Error>)
    requires b.Valid()
    ensures |b.slices| == 0 ==> w' == w && n == 0 && err.None?
    ensures |b.slices| > 0 ==> w' == Write(w, b.Whole()).w && err == Write(w, b.Whole()).err
    ensures n <= Length(b) && w'.out == w.out + b.Whole()[..n]
    ensures err.None? ==> n == Length(b)
    ensures w.Healthy() ==> err.None? && w'.out == w.out + b.Whole()
  {
    w', n, err := w, 0, None;
    var i := 0;
    while i < |b.slices|
      invariant 0 <= i <= |b.slices|
      invariant WroteSlices(w, b.slices, i, w')
      invariant n == Start(b.slices, i)
    {
      var st := Write(w', b.slices[i]);
      if st.err.Some? {
        WriteToFailure(w, b.slices, i, w');
        w', n, err := st.w, n + st.n, st.err;
        return;
      }
      WriteToStep(w, b.slices, i, w');
      w', n := st.w, n + st.n;
      i := i + 1;
    }
    assert b.slices[..i] == b.slices;
  }

  // ---------------------------------------------------------------------
  // ReadAt

  /** What `ReadAt` hands back: the reported count, the caller's buffer
      after the call, and the error. */
  datatype ReadAtResult = ReadAtResult(n: int, p: seq<byte>, err: Option<Error>)

  /** The window `AppendSectionTo` delivers into a fresh in-memory buffer
      (`bytes.NewBuffer(p[:0])`, a writer that never fails). */
  function SectionInto(b: Bytes, off: int, size: nat): (data: seq<byte>)
    requires b.Valid()
    ensures off >= 0 ==> data == Section(b.Whole(), off, size)
    ensures off < 0 ==> data == []
  {
    var r := AppendSectionTo(b, Writer([], None), off, size);
    if off >= 0 then
      AppendSectionToHealthy(b, Writer([], None), off, size);
      assert r.w.out == [] + Section(b.Whole(), off, size);
      r.w.out
    else
      r.w.out
  }

  /** The bytes of `whole` from `off` on, at most `size` of them. */
  function Section(whole: seq<byte>, off: nat, size: nat): (r: seq<byte>)
    ensures |r| == Max(0, Min(size, |whole| - off))
  {
    whole[Min(off, |whole|)..Min(off + size, |whole|)]
  }

  lemma SectionIsContent(whole: seq<byte>, off: nat, size: nat)
    ensures var s := Section(whole, off, size);
      |s| > 0 ==> off + |s| <= |whole| && s == whole[off..off + |s|]
  {
  }

  /** `data` copied over the front of the buffer `p`. */
  lemma Overlay(data: seq<byte>, p: seq<byte>)
    requires |data| <= |p|
    ensures var r := data + p[|data|..];
      |r| == |p| && r[..|data|] == data && r[|data|..] == p[|data|..]
  {
  }

  /** `Bytes.ReadAt(p, off)` as written: always reports `len(p)` bytes,
      whatever the window actually supplied. */
  function ReadAt(b: Bytes, p: seq<byte>, off: int): (r: ReadAtResult)
    requires b.Valid()
    ensures r.n == |p|
    ensures off < 0 ==> r.err == Some(InvalidOffset) && r.p == p
    ensures off >= 0 ==> r.err.None? && r.p == Section(b.Whole(), off, |p|) + p[|Section(b.Whole(), off, |p|)|..]
  {
    var sec := AppendSectionTo(b, Writer([], None), off, |p|);
    var data := sec.w.out;
    assert off >= 0 ==> data == Section(b.Whole(), off, |p|) by {
      if off >= 0 {
        AppendSectionToHealthy(b, Writer([], None), off, |p|);
      }
    }
    ReadAtResult(|p|, data + p[|data|..], sec.err)
  }

  /** `io.ReaderAt`'s promise: the count is within the buffer, the first
      `n` bytes are the content at `off`, and a short count comes with an
      error. */
  ghost predicate ReaderAtContract(b: Bytes, p: seq<byte>, off: int, r: ReadAtResult)
    requires b.Valid()
  {
    && 0 <= r.n <= |p|
    && |r.p| == |p|
    && (r.n > 0 ==> 0 <= off && off + r.n <= Length(b) && r.p[..r.n] == b.Whole()[off..off + r.n])
    && (r.n < |p| ==> r.err.Some?)
  }

  /** `ReadAt` reports bytes it never delivered: reading past the end still
      claims the full buffer and no error. */
  lemma ReadAtOverReports(b: Bytes, p: seq<byte>, off: int)
    requires b.Valid()
    requires 0 <= off && off + |p| > Length(b) && |p| > 0
    ensures ReadAt(b, p, off).n == |p|
    ensures ReadAt(b, p, off).err.None?
    ensures !ReaderAtContract(b, p, off, ReadAt(b, p, off))
  {
  }

  /** A concrete instance: one byte of content, a two-byte buffer. */
  lemma ReadAtOverReportsExample()
    ensures ReadAt(FromSlice([7]), [0, 0], 0) == ReadAtResult(2, [7, 0], None)
  {
    var b := FromSlice([7]);
    assert b.Whole() == [7];
  }

  /** `ReadAt` as `io.ReaderAt` intends it: the same window lands in the
      buffer (`SectionInto` shows `AppendSectionTo` delivers `Section`), but
      the count is what was delivered and a short read ends with `io.EOF`. */
  function ReadAtCorrected(b: Bytes, p: seq<byte>, off: int): (r: ReadAtResult)
    requires b.Valid()
    ensures ReaderAtContract(b, p, off, r)
    ensures off < 0 ==> r == ReadAtResult(0, p, Some(InvalidOffset))
    ensures off >= 0 ==> r.n == Max(0, Min(|p|, Length(b) - off))
    ensures off >= 0 && r.n < |p| ==> r.err == Some(EOF)
    ensures off >= 0 && r.n == |p| ==> r.err.None?
    ensures r.p[r.n..] == p[r.n..]
  {
    if off < 0 then ReadAtResult(0, p, Some(InvalidOffset))
    else
      var data := Section(b.Whole(), off, |p|);
      SectionIsContent(b.Whole(), off, |p|);
      Overlay(data, p);
      ReadAtResult(|data|, data + p[|data|..], if |data| < |p| then Some(EOF) else None)
  }

  /** Inside the content both versions agree, so callers that stay in range
      (the reader below) behave the same under either. */
  lemma ReadAtAgreesInRange(b: Bytes, p: seq<byte>, off: int)
    requires b.Valid()
    requires 0 <= off && off + |p| <= Length(b)
    ensures ReadAt(b, p, off) == ReadAtCorrected(b, p, off)
  {
    assert Section(b.Whole(), off, |p|) == b.Whole()[off..off + |p|];
  }

  /** Inside the content `ReadAt` delivers exactly the window asked for. */
  lemma ReadAtInRange(b: Bytes, p: seq<byte>, off: int)
    requires b.Valid()
    requires 0 <= off && off + |p| <= Length(b)
    ensures ReadAt(b, p, off) == ReadAtResult(|p|, b.Whole()[off..off + |p|], None)
  {
    assert Section(b.Whole(), off, |p|) == b.Whole()[off..off + |p|];
  }
}

=== FILE: gather_reader.dfy ===
/** Readers over gathered bytes: the bounds-checked `bytesReadSeekCloser`
    that `Bytes.Reader()` returns, and the looser `ReaderWrapper`, whose
    position is never checked.  The reader's position is the only state;
    each operation returns the new reader. */
module GatherReader {
  import opened Common
  import opened Gather

  /** `io.SeekStart`, `io.SeekCurrent`, `io.SeekEnd`. */
  const SeekStart: int := 0
  const SeekCurrent: int := 1
  const SeekEnd: int := 2

  /** `bytesReadSeekCloser`: the bytes and the read position. */
  datatype ReadSeeker = ReadSeeker(b: Bytes, offset: int)
  {
    /** What `Reader()` establishes and `Read`/`Seek` keep. */
    predicate Valid()
    {
      b.Valid() && 0 <= offset <= Length(b)
    }
  }

  /** `Bytes.Reader()`. */
  function Reader(b: Bytes): (r: ReadSeeker)
    requires b.Valid()
    ensures r.Valid() && r.b == b && r.offset == 0
  {
    ReadSeeker(b, 0)
  }

  datatype ReadResult = ReadResult(rs: ReadSeeker, n: nat, buf: seq<byte>, err: Option<Error>)

  /** `bytesReadSeekCloser.Read(buf)`: fills the buffer from the current
      position, as far as the content goes, and moves the position on.  The
      source copies through `ReadAt` on the shortened buffer; the body here
      states the outcome directly and `ReadViaReadAt` proves the two agree. */
  function Read(rs: ReadSeeker, buf: seq<byte>): (r: ReadResult)
    requires rs.Valid()
    ensures r.rs.Valid() && r.rs.b == rs.b
    ensures r.n == Min(|buf|, Length(rs.b) - rs.offset)
    ensures r.rs.offset == rs.offset + r.n
    ensures |r.buf| == |buf|
    ensures r.buf[..r.n] == rs.b.Whole()[rs.offset..rs.offset + r.n]
    ensures r.buf[r.n..] == buf[r.n..]
    ensures r.err.Some? <==> |buf| > 0 && rs.offset == Length(rs.b)
    ensures r.err.Some? ==> r.err.value == EOF
  {
    var total := Length(rs.b);
    var l := if rs.offset + |buf| > total then total - rs.offset else |buf|;
    if rs.offset + |buf| > total && l == 0 then
      ReadResult(rs, 0, buf, Some(EOF))
    else
      ReadResult(rs.(offset := rs.offset + l), l, rs.b.Whole()[rs.offset..rs.offset + l] + buf[l..], None)
  }

  /** Away from the end, `Read` is what the source's route through `ReadAt`
      computes: it shortens the buffer to the content left, lets `ReadAt`
      fill that, and keeps the rest of the caller's buffer.  (At the end it
      reports `io.EOF` without calling `ReadAt`, as `Read` states.) */
  lemma ReadViaReadAt(rs: ReadSeeker, buf: seq<byte>)
    requires rs.Valid() && (rs.offset < Length(rs.b) || |buf| == 0)
    ensures var l := Min(|buf|, Length(rs.b) - rs.offset);
      var ra := ReadAt(rs.b, buf[..l], rs.offset);
      Read(rs, buf) == ReadResult(rs.(offset := rs.offset + ra.n), ra.n, ra.p + buf[l..], ra.err)
  {
    var l := Min(|buf|, Length(rs.b) - rs.offset);
    ReadAtInRange(rs.b, buf[..l], rs.offset);
    ReadFromWindow(rs, buf, l, ReadAt(rs.b, buf[..l], rs.offset));
  }

  /** A read that does not hit the end delivers the window `ra` holds. */
  lemma ReadFromWindow(rs: ReadSeeker, buf: seq<byte>, l: nat, ra: ReadAtResult)
    requires rs.Valid()
    requires l == Min(|buf|, Length(rs.b) - rs.offset) && (l > 0 || |buf| == 0)
    requires ra == ReadAtResult(|buf[..l]|, rs.b.Whole()[rs.offset..rs.offset + |buf[..l]|], None)
    ensures Read(rs, buf) == ReadResult(rs.(offset := rs.offset + ra.n), ra.n, ra.p + buf[l..], ra.err)
  {
    assert |buf[..l]| == l;
  }

  datatype SeekResult = SeekResult(rs: ReadSeeker, pos: int, err: Option<Error>)

  /** `bytesReadSeekCloser.Seek(offset, whence)`: moves to a position
      relative to the start, the current position or the end, and refuses
      any position outside the content. */
  function Seek(rs: ReadSeeker, offset: int, whence: int): (r: SeekResult)
    requires rs.Valid()
    ensures r.rs.Valid() && r.rs.b == rs.b
    ensures r.err.Some? ==> r.err == Some(InvalidSeek) && r.rs == rs && r.pos == 0
    ensures r.err.None? ==> r.pos == r.rs.offset
    ensures whence == SeekStart ==>
      (r.err.None? <==> 0 <= offset <= Length(rs.b)) && (r.err.None? ==> r.pos == offset)
    ensures whence == SeekCurrent ==>
      (r.err.None? <==> 0 <= rs.offset + offset <= Length(rs.b)) && (r.err.None? ==> r.pos == rs.offset + offset)
    ensures whence == SeekEnd ==>
      (r.err.None? <==> 0 <= Length(rs.b) + offset <= Length(rs.b)) && (r.err.None? ==> r.pos == Length(rs.b) + offset)
    ensures whence !in {SeekStart, SeekCurrent, SeekEnd} ==> r == SeekResult(rs, rs.offset, None)
  {
    var newOffset :=
      if whence == SeekStart then offset
      else if whence == SeekCurrent then rs.offset + offset
      else if whence == SeekEnd then Length(rs.b) + offset
      else rs.offset;
    if newOffset < 0 || newOffset > Length(rs.b) then SeekResult(rs, 0, Some(InvalidSeek))
    else SeekResult(rs.(offset := newOffset), newOffset, None)
  }

  /** A read loop in the manner of `io.ReadAll`: read into the same buffer
      until an error, keeping what each read delivered. */
  function ReadToEnd(rs: ReadSeeker, buf: seq<byte>): seq<byte>
    requires rs.Valid() && |buf| > 0
    decreases Length(rs.b) - rs.offset
  {
    var r := Read(rs, buf);
    if r.err.Some? then [] else r.buf[..r.n] + ReadToEnd(r.rs, r.buf)
  }

  /** What one read of the loop contributes: at the end it stops the loop;
      otherwise it moves forward, and what it delivered followed by the
      content from the new position is the content from the old one. */
  lemma ReadThenRest(rs: ReadSeeker, buf: seq<byte>)
    requires rs.Valid() && |buf| > 0
    ensures var r := Read(rs, buf);
      && (r.err.Some? ==> rs.offset == |rs.b.Whole()|)
      && (r.err.None? ==>
            && r.rs.Valid() && r.rs.b == rs.b && |r.buf| > 0 && r.rs.offset > rs.offset
            && r.buf[..r.n] + r.rs.b.Whole()[r.rs.offset..] == rs.b.Whole()[rs.offset..])
  {
    var r := Read(rs, buf);
    var whole := rs.b.Whole();
    assert whole[rs.offset..] == whole[rs.offset..rs.offset + r.n] + whole[rs.offset + r.n..];
  }

  /** Reading to the end from any position yields the rest of the content. */
  lemma {:induction false} ReadToEndIsRest(rs: ReadSeeker, buf: seq<byte>)
    requires rs.Valid() && |buf| > 0
    ensures ReadToEnd(rs, buf) == rs.b.Whole()[rs.offset..]
    decreases Length(rs.b) - rs.offset
  {
    ReadThenRest(rs, buf);
    var r := Read(rs, buf);
    if r.err.None? {
      ReadToEndIsRest(r.rs, r.buf);
    }
  }

  /** A fresh reader read to the end yields exactly `ToByteSlice()`. */
  lemma ReadAllIsToByteSlice(b: Bytes, buf: seq<byte>)
    requires b.Valid() && |buf| > 0
    ensures ReadToEnd(Reader(b), buf) == ToByteSlice(b)
  {
    ReadToEndIsRest(Reader(b), buf);
  }

  // ---------------------------------------------------------------------
  // ReaderWrapper

  /** `ReaderWrapper`: the bytes and a position that nothing keeps in range. */
  datatype ReaderWrapper = ReaderWrapper(b: Bytes, i: int)

  /** What the loop of `ReaderWrapper.Read` keeps: `acc` is the content
      from the effective position `p` on, and it reaches up to where slice
      `vi` (starting at `vl0`) begins, or is still empty before it. */
  ghost predicate CopyInvariant(slices: seq<seq<byte>>, vi: nat, vl0: nat, p: nat, cap: nat, acc: seq<byte>)
  {
    && vi <= |slices| && vl0 == Start(slices, vi)
    && |acc| <= cap
    && p + |acc| == Max(p, vl0)
    && (|acc| > 0 ==> p + |acc| <= |Concat(slices)| && acc == Concat(slices)[p..p + |acc|])
  }

  /** What the loop leaves in a buffer of `cap` bytes: as much of the
      content from `p` on as fits. */
  ghost predicate Copied(slices: seq<seq<byte>>, p: nat, cap: nat, r: seq<byte>)
  {
    |r| == Min(cap, Max(0, |Concat(slices)| - p)) && (|r| > 0 ==> r == Concat(slices)[p..p + |r|])
  }

  /** One copying step keeps the invariant, or fills the buffer with the
      content from `p` on. */
  lemma CopyStep(slices: seq<seq<byte>>, vi: nat, vl0: nat, p: nat, cap: nat, acc: seq<byte>, j: nat, take: nat)
    requires CopyInvariant(slices, vi, vl0, p, cap, acc)
    requires vi < |slices| && vl0 + |slices[vi]| >= p
    requires j == Max(p, vl0) - vl0 && take == Min(cap - |acc|, |slices[vi]| - j)
    ensures j + take <= |slices[vi]|
    ensures |acc + slices[vi][j..j + take]| < cap ==>
      CopyInvariant(slices, vi + 1, vl0 + |slices[vi]|, p, cap, acc + slices[vi][j..j + take])
    ensures |acc + slices[vi][j..j + take]| == cap ==> Copied(slices, p, cap, acc + slices[vi][j..j + take])
  {
    StartStep(slices, vi);
    Window(slices, vi, j, j + take);
    var acc' := acc + slices[vi][j..j + take];
    if |acc| > 0 {
      assert Concat(slices)[p..p + |acc'|] == Concat(slices)[p..p + |acc|] + Concat(slices)[p + |acc|..p + |acc'|];
    }
  }

  /** Skipping a slice that ends before the position keeps the invariant:
      nothing has been copied yet. */
  lemma CopySkip(slices: seq<seq<byte>>, vi: nat, vl0: nat, p: nat, cap: nat, acc: seq<byte>)
    requires CopyInvariant(slices, vi, vl0, p, cap, acc)
    requires vi < |slices| && vl0 + |slices[vi]| < p
    ensures CopyInvariant(slices, vi + 1, vl0 + |slices[vi]|, p, cap, acc)
  {
    StartStep(slices, vi);
  }

  /** The loop of `ReaderWrapper.Read`: `vl0` is where slice `vi` starts,
      `acc` what has been copied into the caller's buffer of `cap` bytes.
      Slices that end before the position are skipped; the one holding the
      position is copied from there, later ones from their start, until the
      buffer is full. */
  function CopyFrom(slices: seq<seq<byte>>, vi: nat, vl0: nat, i: int, cap: nat, acc: seq<byte>): (r: seq<byte>)
    requires CopyInvariant(slices, vi, vl0, Max(i, 0), cap, acc)
    decreases |slices| - vi, 1
    ensures Copied(slices, Max(i, 0), cap, r)
  {
    if vi == |slices| then
      assert slices[..vi] == slices;
      acc
    else if vl0 + |slices[vi]| < i then
      CopySkip(slices, vi, vl0, Max(i, 0), cap, acc);
      CopyFrom(slices, vi + 1, vl0 + |slices[vi]|, i, cap, acc)
    else
      CopyInto(slices, vi, vl0, i, cap, acc)
  }

  /** One round of that loop on a slice that reaches the position: copy
      from the position (or the slice's start) as much as fits, and stop
      once the buffer is full. */
  function CopyInto(slices: seq<seq<byte>>, vi: nat, vl0: nat, i: int, cap: nat, acc: seq<byte>): (r: seq<byte>)
    requires CopyInvariant(slices, vi, vl0, Max(i, 0), cap, acc)
    requires vi < |slices| && vl0 + |slices[vi]| >= i
    decreases |slices| - vi, 0
    ensures Copied(slices, Max(i, 0), cap, r)
  {
    var s := slices[vi];
    var j := if vl0 <= i then i - vl0 else 0;
    var take := Min(cap - |acc|, |s| - j);
    CopyStep(slices, vi, vl0, Max(i, 0), cap, acc, j, take);
    var acc' := acc + s[j..j + take];
    if |acc'| == cap then acc'
    else CopyFrom(slices, vi + 1, vl0 + |s|, i, cap, acc')
  }

  datatype WrapperReadResult = WrapperReadResult(q: ReaderWrapper, n: nat, buf: seq<byte>, err: Option<Error>)

  /** `ReaderWrapper.Read(bs)`: copies from the position (from the start if
      the position is negative) into `bs`, advances the position by the
      count, and never reports an error, not even at the end. */
  function WrapperRead(q: ReaderWrapper, bs: seq<byte>): (r: WrapperReadResult)
    ensures r.err.None? && r.q.b == q.b
    ensures r.n == Min(|bs|, Max(0, |q.b.Whole()| - Max(q.i, 0)))
    ensures r.q.i == q.i + r.n
    ensures |r.buf| == |bs|
    ensures r.n > 0 ==> r.buf[..r.n] == q.b.Whole()[Max(q.i, 0)..Max(q.i, 0) + r.n]
    ensures r.buf[r.n..] == bs[r.n..]
  {
    assert q.b.slices[..0] == [];
    var copied := CopyFrom(q.b.slices, 0, 0, q.i, |bs|, []);
    WrapperReadResult(q.(i := q.i + |copied|), |copied|, copied + bs[|copied|..], None)
  }

  datatype WrapperSeekResult = WrapperSeekResult(q: ReaderWrapper, pos: int, err: Option<Error>)

  /** `ReaderWrapper.Seek(i, whence)`: sets the position with no bounds
      check and never fails. */
  function WrapperSeek(q: ReaderWrapper, offset: int, whence: int): (r: WrapperSeekResult)
    requires q.b.Valid()
    ensures r.err.None? && r.q.b == q.b && r.pos == r.q.i
    ensures whence == SeekStart ==> r.pos == offset
    ensures whence == SeekCurrent ==> r.pos == q.i + offset
    ensures whence == SeekEnd ==> r.pos == Length(q.b) + offset
    ensures whence !in {SeekStart, SeekCurrent, SeekEnd} ==> r.q == q
  {
    var l := Length(q.b);
    var i :=
      if whence == SeekCurrent then q.i + offset
      else if whence == SeekStart then offset
      else if whence == SeekEnd then l + offset
      else q.i;
    WrapperSeekResult(q.(i := i), i, None)
  }

  /** From an in-range position, `ReaderWrapper.Read` delivers the same
      bytes as the bounds-checked reader, but reports no `io.EOF` at the end. */
  lemma WrapperReadMatchesReader(b: Bytes, i: int, bs: seq<byte>)
    requires b.Valid() && 0 <= i <= Length(b)
    ensures var w := WrapperRead(ReaderWrapper(b, i), bs);
      var r := Read(ReadSeeker(b, i), bs);
      w.n == r.n && w.buf == r.buf && w.q.i == r.rs.offset && w.err.None?
  {
    var w := WrapperRead(ReaderWrapper(b, i), bs);
    var r := Read(ReadSeeker(b, i), bs);
    assert w.buf == w.buf[..w.n] + w.buf[w.n..];
    assert r.buf == r.buf[..r.n] + r.buf[r.n..];
  }

  /** From an in-range position, `ReaderWrapper.Seek` lands where the
      bounds-checked `Seek` does whenever that one accepts the target;
      where it refuses, the wrapper accepts a position outside the content. */
  lemma WrapperSeekMatchesSeek(b: Bytes, i: int, offset: int, whence: int)
    requires b.Valid() && 0 <= i <= Length(b)
    ensures var w := WrapperSeek(ReaderWrapper(b, i), offset, whence);
      var s := Seek(ReadSeeker(b, i), offset, whence);
      && w.err.None?
      && (s.err.None? ==> w.pos == s.pos && w.q.i == s.rs.offset)
      && (s.err.Some? ==> w.pos < 0 || w.pos > Length(b))
  {
  }
}

=== FILE: pems.dfy ===
/** `FilenameFromBlockName` of the PEM extraction tool: a PEM block's type
    line turned into a file name.  The name is lower-cased, every ASCII
    space, control or punctuation character becomes `_`, and an optional
    decimal collision index and the extension follow, separated by dots.
    Only ASCII input is modelled. */
module Pems {

  predicate IsAscii(s: string)
  {
    forall k :: 0 <= k < |s| ==> s[k] as int < 128
  }

  /** `strings.ToLower` on one ASCII character. */
  function ToLowerAscii(c: char): char
  {
    if 'A' <= c <= 'Z' then (c as int + 32) as char else c
  }

  /** The POSIX class `[:space:]`: tab, newline, vertical tab, form feed,
      carriage return and space. */
  predicate IsSpace(c: char)
  {
    c == ' ' || 9 <= c as int <= 13
  }

  /** The POSIX class `[:cntrl:]`. */
  predicate IsCntrl(c: char)
  {
    c as int < 32 || c as int == 127
  }

  /** The POSIX class `[:punct:]`: the visible ASCII characters that are
      neither letters nor digits. */
  predicate IsPunct(c: char)
  {
    33 <= c as int <= 47 || 58 <= c as int <= 64 || 91 <= c as int <= 96 || 123 <= c as int <= 126
  }

  /** A character the pattern `[[:space:][:cntrl:][:punct:]]` matches. */
  predicate Elided(c: char)
  {
    IsSpace(c) || IsCntrl(c) || IsPunct(c)
  }

  /** The name part: lower-cased, and each matched character replaced by
      exactly one `_`. */
  function Sanitize(s: string): (r: string)
    ensures |r| == |s|
    ensures forall k :: 0 <= k < |s| ==>
      r[k] == if Elided(ToLowerAscii(s[k])) then '_' else ToLowerAscii(s[k])
  {
    if |s| == 0 then []
    else
      var c := ToLowerAscii(s[0]);
      var rest := Sanitize(s[1..]);
      var r := [if Elided(c) then '_' else c] + rest;
      assert forall k :: 1 <= k < |s| ==> r[k] == rest[k - 1] && s[k] == s[1..][k - 1];
      r
  }

  /** The characters a sanitized ASCII name can contain. */
  predicate InNameAlphabet(c: char)
  {
    'a' <= c <= 'z' || '0' <= c <= '9' || c == '_'
  }

  /** A sanitized ASCII name holds only lower-case letters, digits and
      `_`: no space or control character, and `_` is its only
      punctuation. */
  lemma SanitizedAlphabet(s: string)
    requires IsAscii(s)
    ensures forall k :: 0 <= k < |Sanitize(s)| ==> InNameAlphabet(Sanitize(s)[k])
    ensures forall k :: 0 <= k < |Sanitize(s)| ==>
      !IsSpace(Sanitize(s)[k]) && !IsCntrl(Sanitize(s)[k]) && (IsPunct(Sanitize(s)[k]) ==> Sanitize(s)[k] == '_')
  {
    var r := Sanitize(s);
    forall k | 0 <= k < |r|
      ensures InNameAlphabet(r[k])
    {
      assert s[k] as int < 128;
    }
  }

  /** Sanitizing a sanitized name changes nothing. */
  lemma SanitizeIdempotent(s: string)
    requires IsAscii(s)
    ensures Sanitize(Sanitize(s)) == Sanitize(s)
  {
    var r := Sanitize(s);
    SanitizedAlphabet(s);
    forall k | 0 <= k < |r|
      ensures Sanitize(r)[k] == r[k]
    {
      assert InNameAlphabet(r[k]);
    }
  }

  /** The decimal digit of `d`. */
  function Digit(d: nat): char
    requires d < 10
  {
    ('0' as int + d) as char
  }

  /** `%d` of a non-negative integer: its decimal digits, without leading
      zeros. */
  function Decimal(n: nat): (r: string)
    ensures |r| > 0
    ensures forall k :: 0 <= k < |r| ==> '0' <= r[k] <= '9'
    ensures n > 0 ==> r[0] != '0'
  {
    if n < 10 then [Digit(n)] else Decimal(n / 10) + [Digit(n % 10)]
  }

  /** Reads a string of decimal digits back into its value. */
  function ParseDecimal(s: string): nat
    requires forall k :: 0 <= k < |s| ==> '0' <= s[k] <= '9'
  {
    if |s| == 0 then 0
    else 10 * ParseDecimal(s[..|s| - 1]) + (s[|s| - 1] as int - '0' as int)
  }

  /** `Decimal` loses nothing: parsing its digits gives the number back. */
  lemma {:induction false} DecimalRoundTrip(n: nat)
    ensures ParseDecimal(Decimal(n)) == n
  {
    if n >= 10 {
      var d := Decimal(n);
      assert d[..|d| - 1] == Decimal(n / 10);
      DecimalRoundTrip(n / 10);
    }
  }

  lemma DecimalInjective(a: nat, b: nat)
    requires Decimal(a) == Decimal(b)
    ensures a == b
  {
    DecimalRoundTrip(a);
    DecimalRoundTrip(b);
  }

  /** The file name for PEM block `blknm`, extension `ext` and collision
      index `i`; an index of zero or less adds no index. */
  function FilenameFromBlockName(blknm: string, ext: string, i: int): (r: string)
    requires IsAscii(blknm)
    ensures i <= 0 ==> r == Sanitize(blknm) + "." + ext
    ensures i > 0 ==> r == Sanitize(blknm) + "." + Decimal(i) + "." + ext
  {
    var nm := Sanitize(blknm);
    if i <= 0 then nm + "." + ext else nm + "." + Decimal(i) + "." + ext
  }

  /** The name starts with the sanitized block name and ends with the
      extension after a dot. */
  lemma FilenameShape(blknm: string, ext: string, i: int)
    requires IsAscii(blknm)
    ensures var r := FilenameFromBlockName(blknm, ext, i);
      && |r| > |blknm| + |ext|
      && r[..|blknm|] == Sanitize(blknm)
      && r[|blknm|] == '.'
      && r[|r| - |ext|..] == ext
      && r[|r| - |ext| - 1] == '.'
  {
  }

  /** Two strings framed the same way, of the same length, are equal. */
  lemma FramedEqual(nm: string, x: string, y: string, ext: string)
    requires |x| == |y|
    requires nm + "." + x + "." + ext == nm + "." + y + "." + ext
    ensures x == y
  {
    var a := nm + "." + x + "." + ext;
    var b := nm + "." + y + "." + ext;
    assert a[|nm| + 1..|nm| + 1 + |x|] == x;
    assert b[|nm| + 1..|nm| + 1 + |y|] == y;
  }

  /** For one block name and extension, distinct positive indices give
      distinct file names, and a positive index never gives the name
      without an index. */
  lemma FilenamesDistinct(blknm: string, ext: string, i: int, j: int)
    requires IsAscii(blknm)
    requires i != j && 0 < j
    ensures FilenameFromBlockName(blknm, ext, i) != FilenameFromBlockName(blknm, ext, j)
  {
    var nm := Sanitize(blknm);
    if i > 0 && FilenameFromBlockName(blknm, ext, i) == FilenameFromBlockName(blknm, ext, j) {
      FramedEqual(nm, Decimal(i), Decimal(j), ext);
      DecimalInjective(i, j);
    }
  }
}

=== FILE: repo_open.dfy ===
/** The decisions `repo/open.go` makes while opening a repository: option
    defaults, validation of the local configuration and the choice between
    an API-server and a direct connection, the secret that protects the
    local cache, the throttling limits, and the order of the steps of a
    direct open with the error each step can end it with. */
module RepoOpen {
  import opened Common
  import opened Features
  import opened StorageChain
  import opened UpgradeLock

  // ---------------------------------------------------------------------
  // Options and dispatch

  /** `Options.OnFatalError`: the default logs the error and exits the
      process; `Handler(id)` stands for a function the caller supplied. */
  datatype FatalHandler = LogAndExit | Handler(id: nat)

  /** The fields of `Options` that the modelled decisions read. */
  datatype Options = Options(
    traceStorage: bool,
    upgradeOwnerID: string,
    doNotWaitForUpgrade: bool,
    onFatalError: Option<FatalHandler>,
    testOnlyIgnoreMissingRequiredFeatures: bool)

  /** A nil options pointer becomes the zero `Options`, and a missing fatal
      handler becomes the one that logs and exits; nothing else changes. */
  function ApplyOptionDefaults(options: Option<Options>): (r: Options)
    ensures r.onFatalError.Some?
    ensures options.None? ==> r == Options(false, "", false, Some(LogAndExit), false)
    ensures options.Some? && options.value.onFatalError.Some? ==> r == options.value
    ensures options.Some? ==> r == options.value.(onFatalError := r.onFatalError)
    ensures options.Some? && options.value.onFatalError.None? ==> r.onFatalError == Some(LogAndExit)
  {
    var o := if options.None? then Options(false, "", false, None, false) else options.value;
    if o.onFatalError.None? then o.(onFatalError := Some(LogAndExit)) else o
  }

  /** Filling in defaults twice changes nothing. */
  lemma OptionDefaultsIdempotent(options: Option<Options>)
    ensures ApplyOptionDefaults(Some(ApplyOptionDefaults(options))) == ApplyOptionDefaults(options)
  {
  }

  /** The limits of the throttler; the fields are opaque here and the
      empty map stands for Go's zero value. */
  datatype Limits = Limits(settings: map<string, real>)

  const ZeroLimits := Limits(map[])

  /** The fields of the local configuration file that the decisions read
      (the client options are taken as they are stored: how
      `ApplyDefaults` fills them in is not part of this model). */
  datatype LocalConfig = LocalConfig(
    permissiveCacheLoading: bool,
    readOnly: bool,
    hasAPIServer: bool,
    hasStorage: bool,
    throttling: Option<Limits>)

  /** Where `Open` sends the connection. */
  datatype Route =
    | ViaAPIServer(options: Options)
    | Direct(configFile: string, config: LocalConfig, options: Options)

  /** `Open`: the configuration path is made absolute and the configuration
      loaded (both supplied as results); a connection that loads caches
      permissively must be read-only; a configuration naming an API server
      is opened through it, any other directly. */
  function Open(absPath: Result<string>, loaded: Result<LocalConfig>, options: Option<Options>): (r: Result<Route>)
    ensures absPath.Err? ==> r == Err(Wrapped("error resolving config file path", absPath.error))
    ensures absPath.Ok? && loaded.Err? ==> r == Err(loaded.error)
    ensures absPath.Ok? && loaded.Ok? ==>
      (r == Err(PermissiveCacheLoadingNotReadOnly) <==> loaded.value.permissiveCacheLoading && !loaded.value.readOnly)
    ensures r.Ok? ==> absPath.Ok? && loaded.Ok?
    ensures absPath.Ok? && loaded.Ok? && !(loaded.value.permissiveCacheLoading && !loaded.value.readOnly) ==> r.Ok?
    ensures r.Ok? ==> (r.value.ViaAPIServer? <==> loaded.value.hasAPIServer)
    ensures r.Ok? ==> r.value.options == ApplyOptionDefaults(options)
    ensures r.Ok? && r.value.Direct? ==> r.value.configFile == absPath.value && r.value.config == loaded.value
    ensures r.Ok? && loaded.value.permissiveCacheLoading ==> loaded.value.readOnly
  {
    var opts := ApplyOptionDefaults(options);
    match absPath
    case Err(e) => Err(Wrapped("error resolving config file path", e))
    case Ok(path) =>
      match loaded
      case Err(e) => Err(e)
      case Ok(lc) =>
        if lc.permissiveCacheLoading && !lc.readOnly then Err(PermissiveCacheLoadingNotReadOnly)
        else if lc.hasAPIServer then Ok(ViaAPIServer(opts))
        else Ok(Direct(path, lc, opts))
  }

  // ---------------------------------------------------------------------
  // The local-cache integrity secret

  /** What the format manager reports about the repository's secrets. */
  datatype FormatSecrets = FormatSecrets(
    supportsPasswordChange: bool,
    hmacSecret: seq<byte>,
    formatEncryptionKey: seq<byte>,
    uniqueID: seq<byte>)

  /** A call of `format.DeriveKeyFromMasterKey`, kept as its arguments: the
      derivation itself is not part of this model. */
  datatype DerivedKey = DeriveKeyFromMasterKey(masterKey: seq<byte>, uniqueID: seq<byte>, purpose: string, length: nat)

  const LocalCacheIntegrityPurpose := "local-cache-integrity"
  const LocalCacheIntegrityHMACSecretLength := 16

  /** The HMAC secret that protects the local cache. */
  function CacheIntegritySecret(f: FormatSecrets): (k: DerivedKey)
    ensures k.masterKey == (if f.supportsPasswordChange then f.hmacSecret else f.formatEncryptionKey)
    ensures k.uniqueID == f.uniqueID
    ensures k.purpose == "local-cache-integrity" && k.length == 16
  {
    var master := if f.supportsPasswordChange then f.hmacSecret else f.formatEncryptionKey;
    DeriveKeyFromMasterKey(master, f.uniqueID, LocalCacheIntegrityPurpose, LocalCacheIntegrityHMACSecretLength)
  }

  /** For a format that supports password changes the cache secret does
      not depend on the format encryption key, and for one that does not,
      it does not depend on the HMAC secret. */
  lemma CacheSecretIgnoresOtherKey(f: FormatSecrets, otherHmac: seq<byte>, otherKey: seq<byte>)
    ensures f.supportsPasswordChange ==>
      CacheIntegritySecret(f.(formatEncryptionKey := otherKey)) == CacheIntegritySecret(f)
    ensures !f.supportsPasswordChange ==>
      CacheIntegritySecret(f.(hmacSecret := otherHmac)) == CacheIntegritySecret(f)
  {
  }

  // ---------------------------------------------------------------------
  // Throttling limits

  /** `throttlingLimitsFromConnectionInfo`: the storage configuration is
      marshalled to JSON (`None` when that fails) and unmarshalled into
      limits (`unmarshal` returns `None` on failure); either failure gives
      the zero limits. */
  function LimitsFromConnectionInfo(marshalled: Option<string>, unmarshal: string -> Option<Limits>): (l: Limits)
    ensures marshalled.None? ==> l == ZeroLimits
    ensures marshalled.Some? && unmarshal(marshalled.value).None? ==> l == ZeroLimits
    ensures marshalled.Some? && unmarshal(marshalled.value).Some? ==> l == unmarshal(marshalled.value).value
  {
    match marshalled
    case None => ZeroLimits
    case Some(v) =>
      match unmarshal(v)
      case None => ZeroLimits
      case Some(parsed) => parsed
  }

  /** The limits the throttler starts with: the connection's own override
      when there is one, else those read from the connection info. */
  function EffectiveLimits(override: Option<Limits>, marshalled: Option<string>, unmarshal: string -> Option<Limits>): (l: Limits)
    ensures override.Some? ==> l == override.value
    ensures override.None? ==> l == LimitsFromConnectionInfo(marshalled, unmarshal)
  {
    if override.Some? then override.value else LimitsFromConnectionInfo(marshalled, unmarshal)
  }

  /** With an override, neither the connection info nor how it would be
      unmarshalled has any influence on the limits. */
  lemma OverrideIgnoresConnectionInfo(limits: Limits, marshalled: Option<string>, unmarshal: string -> Option<Limits>,
                                      otherMarshalled: Option<string>, otherUnmarshal: string -> Option<Limits>)
    ensures EffectiveLimits(Some(limits), marshalled, unmarshal) == EffectiveLimits(Some(limits), otherMarshalled, otherUnmarshal)
    ensures EffectiveLimits(Some(limits), marshalled, unmarshal) == limits
  {
  }

  /** With no override, the limits are those unmarshalled from the
      connection info, or the zero limits when it cannot be marshalled or
      unmarshalled. */
  lemma NoOverrideUsesConnectionInfo(marshalled: Option<string>, unmarshal: string -> Option<Limits>)
    ensures var l := EffectiveLimits(None, marshalled, unmarshal);
      && (marshalled.Some? && unmarshal(marshalled.value).Some? ==> Some(l) == unmarshal(marshalled.value))
      && (marshalled.None? || unmarshal(marshalled.value).None? ==> l == ZeroLimits)
  {
  }

  // ---------------------------------------------------------------------
  // A direct open

  /** What the collaborators of an open report: the error of
      `openAPIServer`, if it fails; failures of the steps of a direct open
      whose code is not part of this model; the format manager, the
      marshalled connection info, the blob configuration and the runs of
      the upgrade-lock check. */
  datatype Collaborators = Collaborators(
    apiServer: Option<Error>,
    newStorage: Option<Error>,
    profileBuffers: Option<Error>,
    formatManager: Result<FormatSecrets>,
    requiredFeatures: Result<seq<RequiredFeature>>,
    marshalledConnectionInfo: Option<string>,
    unmarshal: string -> Option<Limits>,
    newThrottler: Option<Error>,
    blobConfig: Result<BlobStorageConfig>,
    lockAttempts: seq<Attempt>,
    sharedManager: Option<Error>,
    objectManager: Option<Error>,
    manifests: Option<Error>)

  /** A repository opened directly: its storage wrappers, innermost first,
      the cache secret, the throttling limits and the feature warnings. */
  datatype OpenedRepository = OpenedRepository(
    chain: seq<Layer>,
    cacheIntegritySecret: DerivedKey,
    limits: Limits,
    featureWarnings: seq<string>)

  /** `openWithConfig` over storage already wrapped for logging and
      read-only access as `inner` says. */
  function OpenWithConfig(inner: seq<Layer>, cfg: LocalConfig, options: Options, c: Collaborators): (r: Result<OpenedRepository>)
    ensures c.formatManager.Err? ==> r == Err(Wrapped("unable to create format manager", c.formatManager.error))
    ensures r.Ok? ==> c.formatManager.Ok? && c.requiredFeatures.Ok? && c.blobConfig.Ok?
    ensures r.Ok? ==> WaitForUpgrade(c.lockAttempts, cfg.permissiveCacheLoading, options.upgradeOwnerID, options.doNotWaitForUpgrade).Ok?
    ensures r.Ok? ==> |r.value.chain| > |inner| && r.value.chain[..|inner| + 1] == inner + [Metrics]
  {
    var withMetrics := inner + [Metrics];
    match c.formatManager
    case Err(e) => Err(Wrapped("unable to create format manager", e))
    case Ok(fmgr) =>
      var gate := HandleMissingRequiredFeatures(c.requiredFeatures, options.testOnlyIgnoreMissingRequiredFeatures);
      if gate.err.Some? then Err(gate.err.value)
      else
        var secret := CacheIntegritySecret(fmgr);
        var limits := EffectiveLimits(cfg.throttling, c.marshalledConnectionInfo, c.unmarshal);
        if c.newThrottler.Some? then
          Err(Wrapped("unable to add throttler", Wrapped("unable to create throttler", c.newThrottler.value)))
        else
          var throttled := withMetrics + [Throttling];
          match c.blobConfig
          case Err(e) => Err(Wrapped("blob configuration", e))
          case Ok(blobCfg) =>
            var locked := throttled + Optional(blobCfg.retentionEnabled, Retention);
            var wait := WaitForUpgrade(c.lockAttempts, cfg.permissiveCacheLoading, options.upgradeOwnerID, options.doNotWaitForUpgrade);
            if wait.Err? then Err(wait.error)
            else
              var monitored := locked + Optional(!cfg.permissiveCacheLoading, UpgradeMonitor);
              if c.sharedManager.Some? then Err(Wrapped("unable to create shared content manager", c.sharedManager.value))
              else if c.objectManager.Some? then Err(Wrapped("unable to open object manager", c.objectManager.value))
              else if c.manifests.Some? then Err(Wrapped("unable to open manifests", c.manifests.value))
              else Ok(OpenedRepository(monitored, secret, limits, gate.warnings))
  }

  /** `openDirect`: the configuration must name a storage, which is
      created, wrapped for logging and read-only access as asked, and handed
      to `openWithConfig`. */
  function OpenDirect(cfg: LocalConfig, options: Options, c: Collaborators): (r: Result<OpenedRepository>)
    ensures !cfg.hasStorage ==> r == Err(StorageNotSet)
    ensures r.Ok? ==> cfg.hasStorage && c.newStorage.None? && c.profileBuffers.None?
  {
    if !cfg.hasStorage then Err(StorageNotSet)
    else if c.newStorage.Some? then Err(Wrapped("cannot open storage", c.newStorage.value))
    else if c.profileBuffers.Some? then Err(Wrapped("unable to setup profile buffers", c.profileBuffers.value))
    else
      var inner := Optional(options.traceStorage, Logging) + Optional(cfg.readOnly, ReadOnly);
      OpenWithConfig(inner, cfg, options, c)
  }

  /** A direct open succeeds exactly when every step does. */
  lemma OpenDirectSucceeds(cfg: LocalConfig, options: Options, c: Collaborators)
    ensures OpenDirect(cfg, options, c).Ok? <==>
        && cfg.hasStorage && c.newStorage.None? && c.profileBuffers.None?
        && c.formatManager.Ok?
        && c.requiredFeatures.Ok?
        && (forall k :: 0 <= k < |c.requiredFeatures.value| ==>
              !Blocking(c.requiredFeatures.value[k], options.testOnlyIgnoreMissingRequiredFeatures))
        && c.newThrottler.None? && c.blobConfig.Ok?
        && WaitForUpgrade(c.lockAttempts, cfg.permissiveCacheLoading, options.upgradeOwnerID, options.doNotWaitForUpgrade).Ok?
        && c.sharedManager.None? && c.objectManager.None? && c.manifests.None?
  {
  }

  /** Appending wrappers one at a time builds the chain `WrapperChain`
      describes. */
  lemma AppendedChain(a: seq<Layer>, b: seq<Layer>, e: seq<Layer>, f: seq<Layer>)
    ensures a + b + [Metrics] + [Throttling] + e + f == a + (b + ([Metrics] + ([Throttling] + (e + f))))
  {
  }

  /** A repository opened directly has the storage wrappers the options
      and configurations call for, in order; the cache secret and limits
      selected above; and the gate's feature warnings. */
  lemma OpenDirectResult(cfg: LocalConfig, options: Options, c: Collaborators)
    requires OpenDirect(cfg, options, c).Ok?
    ensures var repo := OpenDirect(cfg, options, c).value;
      && repo.chain == WrapperChain(options.traceStorage, cfg.readOnly, c.blobConfig.value.retentionEnabled, cfg.permissiveCacheLoading)
      && repo.cacheIntegritySecret == CacheIntegritySecret(c.formatManager.value)
      && repo.limits == EffectiveLimits(cfg.throttling, c.marshalledConnectionInfo, c.unmarshal)
      && repo.featureWarnings == Messages(GetUnsupportedFeatures(c.requiredFeatures.value, SupportedFeatures))
  {
    OpenDirectSucceeds(cfg, options, c);
    AppendedChain(Optional(options.traceStorage, Logging), Optional(cfg.readOnly, ReadOnly),
                  Optional(c.blobConfig.value.retentionEnabled, Retention), Optional(!cfg.permissiveCacheLoading, UpgradeMonitor));
  }

  /** The first failing step decides the error of a direct open; the
      feature gate's and the lock wait's errors pass through unwrapped. */
  lemma OpenDirectErrors(cfg: LocalConfig, options: Options, c: Collaborators)
    ensures var r := OpenDirect(cfg, options, c);
      && (!cfg.hasStorage ==> r == Err(StorageNotSet))
      && (cfg.hasStorage && c.newStorage.Some? ==> r == Err(Wrapped("cannot open storage", c.newStorage.value)))
      && (cfg.hasStorage && c.newStorage.None? && c.profileBuffers.None? && c.formatManager.Err? ==>
            r == Err(Wrapped("unable to create format manager", c.formatManager.error)))
      && (cfg.hasStorage && c.newStorage.None? && c.profileBuffers.None? && c.formatManager.Ok? ==>
            var gate := HandleMissingRequiredFeatures(c.requiredFeatures, options.testOnlyIgnoreMissingRequiredFeatures);
            gate.err.Some? ==> r == Err(gate.err.value))
  {
  }

  /** What a successful open hands back: a connection through an API
      server (not modelled further) or a directly opened repository. */
  datatype Connection = APIServerConnection | DirectConnection(repository: OpenedRepository)

  /** The whole open, from the configuration path to a connection. */
  function OpenRepository(absPath: Result<string>, loaded: Result<LocalConfig>, options: Option<Options>, c: Collaborators): (r: Result<Connection>)
    ensures r.Ok? ==> absPath.Ok? && loaded.Ok? && !(loaded.value.permissiveCacheLoading && !loaded.value.readOnly)
    ensures r.Ok? ==> (r.value.APIServerConnection? <==> loaded.value.hasAPIServer)
    ensures absPath.Ok? && loaded.Ok? && loaded.value.hasAPIServer && !(loaded.value.permissiveCacheLoading && !loaded.value.readOnly) ==>
      r == if c.apiServer.Some? then Err(c.apiServer.value) else Ok(APIServerConnection)
    ensures absPath.Ok? && loaded.Ok? && !loaded.value.hasAPIServer && !(loaded.value.permissiveCacheLoading && !loaded.value.readOnly) ==>
      r == match OpenDirect(loaded.value, ApplyOptionDefaults(options), c)
           case Ok(repo) => Ok(DirectConnection(repo))
           case Err(e) => Err(e)
  {
    match Open(absPath, loaded, options)
    case Err(e) => Err(e)
    case Ok(ViaAPIServer(_)) =>
      if c.apiServer.Some? then Err(c.apiServer.value) else Ok(APIServerConnection)
    case Ok(Direct(_, cfg, opts)) =>
      match OpenDirect(cfg, opts, c)
      case Err(e) => Err(e)
      case Ok(repo) => Ok(DirectConnection(repo))
  }

  /** A connection that loads caches permissively can only be opened
      read-only and never gets the upgrade-lock monitor; any other direct
      connection always gets it. */
  lemma PermissiveOpenIsReadOnly(absPath: Result<string>, loaded: Result<LocalConfig>, options: Option<Options>, c: Collaborators)
    ensures var r := OpenRepository(absPath, loaded, options, c);
      r.Ok? && r.value.DirectConnection? ==>
        var chain := r.value.repository.chain;
        && (loaded.value.permissiveCacheLoading ==> ReadOnly in chain && UpgradeMonitor !in chain)
        && (!loaded.value.permissiveCacheLoading ==> UpgradeMonitor in chain)
  {
    var r := OpenRepository(absPath, loaded, options, c);
    if r.Ok? && r.value.DirectConnection? {
      var route := Open(absPath, loaded, options).value;
      OpenDirectResult(route.config, route.options, c);
    }
  }
}

=== FILE: storage_chain.dfy ===
/** The storage wrapper chain that opening a repository builds around the
    raw blob storage, and the retention hook, the one wrapper that changes
    what reaches the storage: it stamps writes to protected blobs with the
    repository's retention settings. */
module StorageChain {
  import opened Common

  /** The wrappers, named after the packages that provide them. */
  datatype Layer = Logging | ReadOnly | Metrics | Throttling | Retention | UpgradeMonitor

  /** Position of each wrapper in the chain, innermost first. */
  function Rank(l: Layer): nat
  {
    match l
    case Logging => 0
    case ReadOnly => 1
    case Metrics => 2
    case Throttling => 3
    case Retention => 4
    case UpgradeMonitor => 5
  }

  /** Every wrapper appears at most once and in rank order. */
  predicate StrictlyRanked(chain: seq<Layer>)
  {
    forall a, b :: 0 <= a < b < |chain| ==> Rank(chain[a]) < Rank(chain[b])
  }

  /** The wrapper `l` when `on` holds, else nothing. */
  function Optional(on: bool, l: Layer): seq<Layer>
  {
    if on then [l] else []
  }

  /** Every wrapper of `chain` ranks at least `n`. */
  predicate RanksFrom(chain: seq<Layer>, n: nat)
  {
    forall i :: 0 <= i < |chain| ==> n <= Rank(chain[i])
  }

  /** Putting `l` (when `on` holds) inside a chain of higher-ranked
      wrappers keeps the chain in rank order. */
  lemma RankedPrepend(on: bool, l: Layer, rest: seq<Layer>)
    requires StrictlyRanked(rest) && RanksFrom(rest, Rank(l) + 1)
    ensures StrictlyRanked(Optional(on, l) + rest) && RanksFrom(Optional(on, l) + rest, Rank(l))
  {
    var head := Optional(on, l);
    forall i, j | 0 <= i < j < |head + rest|
      ensures Rank((head + rest)[i]) < Rank((head + rest)[j])
    {
      assert (head + rest)[j] == rest[j - |head|];
      if i >= |head| {
        assert (head + rest)[i] == rest[i - |head|];
      }
    }
    forall i | 0 <= i < |head + rest|
      ensures Rank(l) <= Rank((head + rest)[i])
    {
      if i >= |head| {
        assert (head + rest)[i] == rest[i - |head|];
      }
    }
  }

  /** The chain `openDirect` and `openWithConfig` build, innermost first:
      logging when storage tracing is on, read-only for read-only
      connections, then metrics and throttling always, retention when the
      blob configuration enables it, and the upgrade-lock monitor unless
      the connection loads caches permissively. */
  function WrapperChain(traceStorage: bool, readOnly: bool, retentionEnabled: bool, permissive: bool): (chain: seq<Layer>)
    ensures Logging in chain <==> traceStorage
    ensures ReadOnly in chain <==> readOnly
    ensures Metrics in chain && Throttling in chain
    ensures Retention in chain <==> retentionEnabled
    ensures UpgradeMonitor in chain <==> !permissive
  {
    Optional(traceStorage, Logging)
    + (Optional(readOnly, ReadOnly)
    + ([Metrics]
    + ([Throttling]
    + (Optional(retentionEnabled, Retention)
    + Optional(!permissive, UpgradeMonitor)))))
  }

  /** Each wrapper is applied at most once, and in rank order. */
  lemma WrapperChainRanked(traceStorage: bool, readOnly: bool, retentionEnabled: bool, permissive: bool)
    ensures StrictlyRanked(WrapperChain(traceStorage, readOnly, retentionEnabled, permissive))
  {
    var c5 := Optional(!permissive, UpgradeMonitor);
    RankedPrepend(!permissive, UpgradeMonitor, []);
    assert c5 + [] == c5;
    var c4 := Optional(retentionEnabled, Retention) + c5;
    RankedPrepend(retentionEnabled, Retention, c5);
    var c3 := [Throttling] + c4;
    RankedPrepend(true, Throttling, c4);
    var c2 := [Metrics] + c3;
    RankedPrepend(true, Metrics, c3);
    var c1 := Optional(readOnly, ReadOnly) + c2;
    RankedPrepend(readOnly, ReadOnly, c2);
    RankedPrepend(traceStorage, Logging, c1);
  }

  lemma RankInjective(a: Layer, b: Layer)
    ensures Rank(a) == Rank(b) ==> a == b
  {
  }

  /** In a ranked chain the first wrapper ranks lowest and occurs once. */
  lemma RankedTail(s: seq<Layer>)
    requires StrictlyRanked(s) && |s| > 0
    ensures StrictlyRanked(s[1..])
    ensures forall l :: l in s[1..] <==> l in s && l != s[0]
    ensures forall l :: l in s ==> Rank(s[0]) <= Rank(l)
  {
    forall l | l in s
      ensures Rank(s[0]) <= Rank(l)
      ensures l in s[1..] <==> l != s[0]
    {
      var a :| 0 <= a < |s| && s[a] == l;
      if a > 0 {
        assert Rank(s[0]) < Rank(s[a]);
        assert s[a] == s[1..][a - 1];
      }
    }
  }

  /** A chain in rank order is fixed by which wrappers it holds. */
  lemma {:induction false} RankedChainsUnique(s: seq<Layer>, t: seq<Layer>)
    requires StrictlyRanked(s) && StrictlyRanked(t)
    requires forall l :: l in s <==> l in t
    ensures s == t
    decreases |s| + |t|
  {
    assert |s| == 0 <==> |t| == 0 by {
      if |s| > 0 { assert s[0] in s; }
      if |t| > 0 { assert t[0] in t; }
    }
    if |s| > 0 {
      assert s[0] in t && t[0] in s;
      RankedTail(s);
      RankedTail(t);
      RankInjective(s[0], t[0]);
      RankedChainsUnique(s[1..], t[1..]);
      assert s == [s[0]] + s[1..];
      assert t == [t[0]] + t[1..];
    }
  }

  /** The chain built for given switches is the only rank-ordered chain
      holding exactly the wrappers those switches enable. */
  lemma WrapperChainCharacterized(traceStorage: bool, readOnly: bool, retentionEnabled: bool, permissive: bool, other: seq<Layer>)
    requires StrictlyRanked(other)
    requires Logging in other <==> traceStorage
    requires ReadOnly in other <==> readOnly
    requires Metrics in other && Throttling in other
    requires Retention in other <==> retentionEnabled
    requires UpgradeMonitor in other <==> !permissive
    ensures other == WrapperChain(traceStorage, readOnly, retentionEnabled, permissive)
  {
    var chain := WrapperChain(traceStorage, readOnly, retentionEnabled, permissive);
    forall l
      ensures l in other <==> l in chain
    {
      match l
      case Logging =>
      case ReadOnly =>
      case Metrics =>
      case Throttling =>
      case Retention =>
      case UpgradeMonitor =>
    }
    WrapperChainRanked(traceStorage, readOnly, retentionEnabled, permissive);
    RankedChainsUnique(other, chain);
  }

  // ---------------------------------------------------------------------
  // Retention

  /** `blob.PutOptions`: the retention fields the hook may set, and
      `otherFields` standing for every field it never touches. */
  datatype PutOptions = PutOptions(retentionMode: string, retentionPeriod: int, otherFields: nat)

  /** The retention settings of the repository's blob configuration;
      whether they are enabled is computed by code outside this model. */
  datatype BlobStorageConfig = BlobStorageConfig(retentionMode: string, retentionPeriod: int, retentionEnabled: bool)

  /** The blob-id prefixes `wrapLockingStorage` protects, in its order: the
      pack-blob prefixes, then the v0 index prefix, the epoch-manager uber
      index prefix, the repository blob id and the blob-configuration blob
      id.  Their values are defined in other packages. */
  function ProtectedPrefixes(packBlobPrefixes: seq<string>, v0IndexPrefix: string, epochUberPrefix: string,
                             repositoryBlobID: string, blobCfgBlobID: string): seq<string>
  {
    packBlobPrefixes + [v0IndexPrefix, epochUberPrefix, repositoryBlobID, blobCfgBlobID]
  }

  /** `strings.HasPrefix(id, prefix)`. */
  predicate HasPrefix(id: string, prefix: string)
  {
    |prefix| <= |id| && id[..|prefix|] == prefix
  }

  /** The loop of the hook: does any protected prefix start `id`? */
  function MatchesAny(prefixes: seq<string>, id: string): (b: bool)
    ensures b <==> exists p :: p in prefixes && HasPrefix(id, p)
  {
    if |prefixes| == 0 then false
    else HasPrefix(id, prefixes[0]) || MatchesAny(prefixes[1..], id)
  }

  datatype HookResult = HookResult(opts: PutOptions, err: Option<Error>)

  /** The Put hook of `wrapLockingStorage`: a blob whose id starts with a
      protected prefix is written with the configured retention mode and
      period; any other blob keeps its options.  It never fails. */
  function RetentionPutHook(prefixes: seq<string>, cfg: BlobStorageConfig, id: string, opts: PutOptions): (r: HookResult)
    ensures r.err.None?
    ensures (exists p :: p in prefixes && HasPrefix(id, p)) ==>
      r.opts.retentionMode == cfg.retentionMode && r.opts.retentionPeriod == cfg.retentionPeriod
    ensures !(exists p :: p in prefixes && HasPrefix(id, p)) ==> r.opts == opts
    ensures r.opts.otherFields == opts.otherFields
  {
    if MatchesAny(prefixes, id) then
      HookResult(opts.(retentionMode := cfg.retentionMode, retentionPeriod := cfg.retentionPeriod), None)
    else
      HookResult(opts, None)
  }

  /** The options a Put carries when it reaches the raw storage, passed
      from the outermost wrapper inwards; only the retention wrapper
      changes them.  (Whether a wrapper refuses the Put instead is not
      modelled here.) */
  function OptionsAtStorage(chain: seq<Layer>, prefixes: seq<string>, cfg: BlobStorageConfig, id: string, opts: PutOptions): (r: PutOptions)
    ensures Retention !in chain ==> r == opts
    ensures Retention in chain ==> r == RetentionPutHook(prefixes, cfg, id, opts).opts
    decreases |chain|
  {
    if |chain| == 0 then opts
    else
      var outer := chain[|chain| - 1];
      var passed := if outer == Retention then RetentionPutHook(prefixes, cfg, id, opts).opts else opts;
      assert forall l :: l in chain <==> l == outer || l in chain[..|chain| - 1];
      OptionsAtStorage(chain[..|chain| - 1], prefixes, cfg, id, passed)
  }

  /** Through the chain that opening builds, a Put's options change only
      when retention is enabled and the blob id is protected. */
  lemma RetentionOnlyWhenEnabled(traceStorage: bool, readOnly: bool, permissive: bool,
                                 prefixes: seq<string>, cfg: BlobStorageConfig, id: string, opts: PutOptions)
    ensures var r := OptionsAtStorage(WrapperChain(traceStorage, readOnly, cfg.retentionEnabled, permissive), prefixes, cfg, id, opts);
      r == if cfg.retentionEnabled && MatchesAny(prefixes, id)
           then opts.(retentionMode := cfg.retentionMode, retentionPeriod := cfg.retentionPeriod)
           else opts
  {
  }
}

=== FILE: upgrade_lock.dfy ===
/** The upgrade lock as opening a repository sees it: the check made
    before the repository is handed out (retried while another client
    holds the lock), and the monitor that repeats the check before storage
    operations each time the format blob has been reloaded. */
module UpgradeLock {
  import opened Common
  import opened Features

  /** A point in time; `time.Time` values are compared with `Equal`. */
  type Time = int

  /** Go's zero `time.Time`, the monitor's initial `lastCheckTime`. */
  const ZeroTime: Time := 0

  /** An upgrade-lock intent, as far as the checks read it: its owner and
      whether it is locked at a given time (`IsLocked`, whose code is not
      part of this model and whose second result the checks discard). */
  datatype LockIntent = LockIntent(ownerID: string, isLockedAt: Time -> bool)

  /** The intent locks out the client `ownerID` at `now`.  A missing
      intent locks no one. */
  predicate LockedOut(uli: Option<LockIntent>, ownerID: string, now: Time)
  {
    uli.Some? && uli.value.isLockedAt(now) && uli.value.ownerID != ownerID
  }

  // ---------------------------------------------------------------------
  // The check made while opening

  /** The body retried by `openWithConfig`: an error reading the intent is
      returned as it is; otherwise a connection that does not load caches
      permissively is refused while someone else holds the lock. */
  function LockCheck(intent: Result<Option<LockIntent>>, permissive: bool, upgradeOwnerID: string, now: Time): (r: Result<bool>)
    ensures intent.Err? ==> r == Err(intent.error)
    ensures intent.Ok? ==> (r.Err? <==> !permissive && LockedOut(intent.value, upgradeOwnerID, now))
    ensures intent.Ok? && r.Err? ==> r.error == UpgradeInProgress
    ensures r.Ok? ==> r.value == false
  {
    match intent
    case Err(e) => Err(e)
    case Ok(uli) =>
      if !permissive && LockedOut(uli, upgradeOwnerID, now) then Err(UpgradeInProgress)
      else Ok(false)
  }

  /** The retry predicate: only the upgrade-in-progress error, possibly
      wrapped, is retried, and only when the caller is willing to wait. */
  predicate Retried(doNotWaitForUpgrade: bool, err: Error)
  {
    !doNotWaitForUpgrade && Is(err, UpgradeInProgress)
  }

  /** `errors.Is` sees through any number of wraps, so a wrapped
      upgrade-in-progress error is retried like the bare one, and an error
      built without it never is. */
  lemma {:induction false} RetriedThroughWraps(doNotWaitForUpgrade: bool, contexts: seq<string>, err: Error)
    ensures Retried(doNotWaitForUpgrade, WrapAll(contexts, err)) <==> Retried(doNotWaitForUpgrade, err)
    decreases |contexts|
  {
    if |contexts| > 0 {
      RetriedThroughWraps(doNotWaitForUpgrade, contexts[1..], err);
    }
  }

  /** `err` wrapped once per context, the first context outermost. */
  function WrapAll(contexts: seq<string>, err: Error): Error
  {
    if |contexts| == 0 then err else Wrapped(contexts[0], WrapAll(contexts[1..], err))
  }

  /** One run of the retried body: what the intent read returned and the
      clock at that moment. */
  datatype Attempt = Attempt(intent: Result<Option<LockIntent>>, now: Time)

  function Outcome(a: Attempt, permissive: bool, upgradeOwnerID: string): Result<bool>
  {
    LockCheck(a.intent, permissive, upgradeOwnerID, a.now)
  }

  /** Attempt `k` is the first whose outcome is not retried. */
  ghost predicate Settles(attempts: seq<Attempt>, permissive: bool, upgradeOwnerID: string, doNotWait: bool, k: int)
  {
    && 0 <= k < |attempts|
    && !(Outcome(attempts[k], permissive, upgradeOwnerID).Err?
         && Retried(doNotWait, Outcome(attempts[k], permissive, upgradeOwnerID).error))
    && forall m :: 0 <= m < k ==>
         Outcome(attempts[m], permissive, upgradeOwnerID).Err?
         && Retried(doNotWait, Outcome(attempts[m], permissive, upgradeOwnerID).error)
  }

  lemma SettlesShift(attempts: seq<Attempt>, permissive: bool, upgradeOwnerID: string, doNotWait: bool, k: int)
    requires |attempts| > 0 && 0 < k
    requires Outcome(attempts[0], permissive, upgradeOwnerID).Err?
    requires Retried(doNotWait, Outcome(attempts[0], permissive, upgradeOwnerID).error)
    ensures Settles(attempts, permissive, upgradeOwnerID, doNotWait, k)
        <==> Settles(attempts[1..], permissive, upgradeOwnerID, doNotWait, k - 1)
  {
    var rest := attempts[1..];
    if Settles(rest, permissive, upgradeOwnerID, doNotWait, k - 1) {
      forall m | 0 <= m < k
        ensures Outcome(attempts[m], permissive, upgradeOwnerID).Err?
             && Retried(doNotWait, Outcome(attempts[m], permissive, upgradeOwnerID).error)
      {
        if m > 0 {
          assert attempts[m] == rest[m - 1];
        }
      }
    }
    if Settles(attempts, permissive, upgradeOwnerID, doNotWait, k) {
      forall m | 0 <= m < k - 1
        ensures Outcome(rest[m], permissive, upgradeOwnerID).Err?
             && Retried(doNotWait, Outcome(rest[m], permissive, upgradeOwnerID).error)
      {
        assert rest[m] == attempts[m + 1];
      }
    }
  }

  /** The wait for the upgrade lock: the attempts are made in order until
      one is not retried, whose outcome becomes the result.  Retries have no
      limit; running out of attempts stands for the context being
      cancelled while still waiting. */
  function WaitForUpgrade(attempts: seq<Attempt>, permissive: bool, upgradeOwnerID: string, doNotWait: bool): (r: Result<bool>)
    ensures forall k :: Settles(attempts, permissive, upgradeOwnerID, doNotWait, k) ==>
      r == Outcome(attempts[k], permissive, upgradeOwnerID)
    ensures (forall k :: !Settles(attempts, permissive, upgradeOwnerID, doNotWait, k)) ==> r == Err(Cancelled)
    decreases |attempts|
  {
    if |attempts| == 0 then Err(Cancelled)
    else
      var o := Outcome(attempts[0], permissive, upgradeOwnerID);
      if o.Err? && Retried(doNotWait, o.error) then
        var r := WaitForUpgrade(attempts[1..], permissive, upgradeOwnerID, doNotWait);
        assert !Settles(attempts, permissive, upgradeOwnerID, doNotWait, 0);
        forall k | 0 < k
          ensures Settles(attempts, permissive, upgradeOwnerID, doNotWait, k)
              <==> Settles(attempts[1..], permissive, upgradeOwnerID, doNotWait, k - 1)
        {
          SettlesShift(attempts, permissive, upgradeOwnerID, doNotWait, k);
        }
        assert forall k :: Settles(attempts, permissive, upgradeOwnerID, doNotWait, k) ==>
          Settles(attempts[1..], permissive, upgradeOwnerID, doNotWait, k - 1) && attempts[k] == attempts[1..][k - 1];
        assert (forall k :: !Settles(attempts, permissive, upgradeOwnerID, doNotWait, k)) ==>
          (forall k :: !Settles(attempts[1..], permissive, upgradeOwnerID, doNotWait, k)) by {
          if exists k :: Settles(attempts[1..], permissive, upgradeOwnerID, doNotWait, k) {
            var k :| Settles(attempts[1..], permissive, upgradeOwnerID, doNotWait, k);
            assert Settles(attempts, permissive, upgradeOwnerID, doNotWait, k + 1);
          }
        }
        r
      else
        assert Settles(attempts, permissive, upgradeOwnerID, doNotWait, 0);
        assert forall k :: Settles(attempts, permissive, upgradeOwnerID, doNotWait, k) ==> k == 0;
        o
  }

  /** What waiting promises the caller: a client willing to wait never
      gets the upgrade-in-progress error (it waits, or is cancelled);
      without waiting the first attempt decides; and the wait succeeds
      exactly when some attempt finds the lock free after only attempts
      that found it taken. */
  lemma WaitOutcome(attempts: seq<Attempt>, permissive: bool, upgradeOwnerID: string, doNotWait: bool)
    ensures var r := WaitForUpgrade(attempts, permissive, upgradeOwnerID, doNotWait);
      && (!doNotWait && r.Err? ==> !Is(r.error, UpgradeInProgress))
      && (doNotWait && |attempts| > 0 ==> r == Outcome(attempts[0], permissive, upgradeOwnerID))
      && (r.Ok? <==> exists k :: Settles(attempts, permissive, upgradeOwnerID, doNotWait, k)
                                && Outcome(attempts[k], permissive, upgradeOwnerID).Ok?)
  {
    var r := WaitForUpgrade(attempts, permissive, upgradeOwnerID, doNotWait);
    if doNotWait && |attempts| > 0 {
      assert Settles(attempts, permissive, upgradeOwnerID, doNotWait, 0);
    }
    if exists k :: Settles(attempts, permissive, upgradeOwnerID, doNotWait, k) {
      var k :| Settles(attempts, permissive, upgradeOwnerID, doNotWait, k);
      assert r == Outcome(attempts[k], permissive, upgradeOwnerID);
    }
  }

  // ---------------------------------------------------------------------
  // The monitor

  /** The monitor's state: the loaded time of the format blob whose lock
      intent it last found clear. */
  datatype MonitorState = MonitorState(lastCheckTime: Time)

  const InitialMonitor := MonitorState(ZeroTime)

  /** What the collaborators report during one callback: the format blob's
      loaded time read before and after taking the lock, the lock intent,
      the required features, and the clock. */
  datatype MonitorInput = MonitorInput(
    loadedTime: Time,
    recheckLoadedTime: Time,
    intent: Result<Option<LockIntent>>,
    required: Result<seq<RequiredFeature>>,
    now: Time)

  /** The new state, the error the callback returns, the error handed to
      `onFatalError` (if it was called), whether the intent was read, and
      the feature warnings logged. */
  datatype MonitorStep = MonitorStep(
    state: MonitorState,
    err: Option<Error>,
    fatal: Option<Error>,
    intentRead: bool,
    warnings: seq<string>)

  /** The callback `upgradeLockMonitor` runs before each storage operation,
      taken sequentially. */
  function MonitorCallback(s: MonitorState, upgradeOwnerID: string, ignoreMissing: bool, input: MonitorInput): (r: MonitorStep)
    // Fast path: this revision of the format blob was already checked.
    ensures s.lastCheckTime == input.loadedTime || s.lastCheckTime == input.recheckLoadedTime ==>
      r == MonitorStep(s, None, None, false, [])
    // Otherwise the revision is new on both reads and the intent is read.
    ensures s.lastCheckTime != input.loadedTime && s.lastCheckTime != input.recheckLoadedTime ==> r.intentRead
    ensures !r.intentRead ==> r.err.None? && r.state == s
    // The state moves only after a full successful check, to the re-read time.
    ensures r.state != s ==> r.err.None? && r.state.lastCheckTime == input.recheckLoadedTime
    ensures r.intentRead && r.err.None? ==> r.state.lastCheckTime == input.recheckLoadedTime
    ensures r.err.Some? ==> r.state == s
    // Reading the intent fails: wrapped, nothing else is looked at.
    ensures r.intentRead && input.intent.Err? ==>
      r.err == Some(Wrapped("upgrade lock intent", input.intent.error)) && r.fatal.None?
    // The feature gate fails: fatal, and the same error is returned.
    ensures r.fatal.Some? <==>
      r.intentRead && input.intent.Ok? && HandleMissingRequiredFeatures(input.required, ignoreMissing).err.Some?
    ensures r.fatal.Some? ==> r.err == r.fatal
    ensures r.fatal.Some? ==> r.fatal == HandleMissingRequiredFeatures(input.required, ignoreMissing).err
    // Every warning of the gate is logged once the intent has been read.
    ensures r.intentRead && input.intent.Ok? ==> r.warnings == HandleMissingRequiredFeatures(input.required, ignoreMissing).warnings
    // The lock is held by someone else.
    ensures r.intentRead && input.intent.Ok? && r.fatal.None? ==>
      (r.err.Some? <==> LockedOut(input.intent.value, upgradeOwnerID, input.now))
    ensures r.intentRead && input.intent.Ok? && r.fatal.None? && r.err.Some? ==> r.err == Some(UpgradeInProgress)
  {
    if s.lastCheckTime == input.loadedTime || s.lastCheckTime == input.recheckLoadedTime then
      MonitorStep(s, None, None, false, [])
    else
      match input.intent
      case Err(e) => MonitorStep(s, Some(Wrapped("upgrade lock intent", e)), None, true, [])
      case Ok(uli) =>
        var gate := HandleMissingRequiredFeatures(input.required, ignoreMissing);
        if gate.err.Some? then
          MonitorStep(s, gate.err, gate.err, true, gate.warnings)
        else if LockedOut(uli, upgradeOwnerID, input.now) then
          MonitorStep(s, Some(UpgradeInProgress), None, true, gate.warnings)
        else
          MonitorStep(MonitorState(input.recheckLoadedTime), None, None, true, gate.warnings)
  }

  /** The upgrade owner is never refused by the monitor because of the
      lock, and neither is anyone while the intent is missing. */
  lemma OwnerNeverLockedOut(s: MonitorState, upgradeOwnerID: string, ignoreMissing: bool, input: MonitorInput)
    requires input.intent.Ok?
    requires input.intent.value.None? || input.intent.value.value.ownerID == upgradeOwnerID
    ensures MonitorCallback(s, upgradeOwnerID, ignoreMissing, input).err != Some(UpgradeInProgress)
  {
    var r := MonitorCallback(s, upgradeOwnerID, ignoreMissing, input);
    if r.fatal.Some? {
      GateErrors(input.required, ignoreMissing);
    }
  }

  /** The feature gate never fails with the upgrade-in-progress error. */
  lemma GateErrors(required: Result<seq<RequiredFeature>>, ignore: bool)
    ensures HandleMissingRequiredFeatures(required, ignore).err != Some(UpgradeInProgress)
  {
  }

  /** After a failed check the monitor checks again on the next call for
      the same revision; after a successful one it does not. */
  lemma MonitorRetriesUntilClear(s: MonitorState, upgradeOwnerID: string, ignoreMissing: bool, input: MonitorInput, next: MonitorInput)
    requires MonitorCallback(s, upgradeOwnerID, ignoreMissing, input).intentRead
    requires next.loadedTime == input.recheckLoadedTime
    ensures var r := MonitorCallback(s, upgradeOwnerID, ignoreMissing, input);
      (MonitorCallback(r.state, upgradeOwnerID, ignoreMissing, next).intentRead
       <==> r.err.Some? && s.lastCheckTime != next.recheckLoadedTime)
  {
  }

  /** A sequence of callbacks, each seeing the state the previous one left. */
  function RunMonitor(s: MonitorState, upgradeOwnerID: string, ignoreMissing: bool, inputs: seq<MonitorInput>): (r: MonitorState)
    ensures r == s || exists k :: 0 <= k < |inputs| && r.lastCheckTime == inputs[k].recheckLoadedTime
    decreases |inputs|
  {
    if |inputs| == 0 then s
    else
      var step := MonitorCallback(s, upgradeOwnerID, ignoreMissing, inputs[0]);
      var r := RunMonitor(step.state, upgradeOwnerID, ignoreMissing, inputs[1..]);
      assert r == step.state || exists k :: 0 <= k < |inputs| && r.lastCheckTime == inputs[k].recheckLoadedTime by {
        if r != step.state {
          var k :| 0 <= k < |inputs[1..]| && r.lastCheckTime == inputs[1..][k].recheckLoadedTime;
          assert inputs[1..][k] == inputs[k + 1];
        }
      }
      r
  }
}
